=== FILE: README.md ===
# benchmark_driver: the memory runner, the output facade and the configuration

This is a Dafny model of three pieces of `benchmark_driver`, a Ruby benchmarking tool.

- **The memory runner** (`BenchmarkDriver::Runner::Memory`). It measures the peak resident set size of each benchmark job under each Ruby executable. It does this as follows:
  - It writes the job into a small Ruby program: a prelude, the script (wrapped in a counted `while` loop when the loop count is above one) and a teardown.
  - It runs that program under `/usr/bin/time`.
  - It reads the `maxresident` kilobyte figure from time(1)'s report and converts it to bytes.
  - It reports the figure through the output protocol.
- **The output facade** (`BenchmarkDriver::Output`). It checks the requested output type and turns it into a formatter class name (`foo_bar` gives `FooBar`). It then forwards the protocol calls to that formatter: `metrics=`, `with_warmup`, `with_benchmark`, `with_job`, `with_context` and `report`.
- **The configuration records** (`BenchmarkDriver::Config`). This covers:
  - the command-line defaults;
  - `RunnerConfig`, the part of the configuration a runner receives;
  - `Executable#description`, which runs `ruby -v` once and caches the answer.

## How it is modelled

- Ruby exceptions become `Result` failures that carry an `Errors.Error`. `nil` becomes `Option`.
- Calls into the outside world are parameters:
  - `spawn` stands for a child process. It receives the argument vector and the script file's contents, and returns the output and the exit status.
  - `popen` stands for `IO.popen` in `description`.
  - `repeat` stands for `BenchmarkDriver::Repeater.with_repeat`.
  - `runnable` stands for `Job#runnable_execs`.
  - `sysname` stands for `Etc.uname[:sysname]`.
- The output protocol is modelled as a flat trace of events (`Protocol.Event`). A formatter receives one event per call:
  - `metrics=` and `report` are single events;
  - each `with_*` scope becomes an enter event and a leave event around its block's events.

  The documented call order (`output.rb:7-16`) is a grammar for these traces. `Protocol.Session` is its parse tree, `Protocol.SessionEvents` flattens a session into a trace, and `Protocol.ParseSession` parses a trace back. `Protocol.WellFormedTrace` means "the parse succeeds".
- Strings are `seq<char>`. `capitalize`, `upcase`/`downcase` and `rstrip` act on ASCII only.

Modules:

| module | file | covers |
|---|---|---|
| `Wrappers` | wrappers.dfy | `Option`, `Result` |
| `Text` | text.dfy | digits, decimal rendering, ASCII case mapping, `rstrip` |
| `Errors` | errors.dfy | exit statuses, the exceptions raised |
| `Config` | config.dfy | `Config`, `RunnerConfig`, `Executable#description` |
| `Protocol` | protocol.dfy | metrics, jobs, contexts, results, the event grammar |
| `Output` | output.dfy | `Output#initialize`, camelising, the forwarding calls |
| `Script` | script.dfy | `BenchmarkScript#render`, `while_loop` |
| `TimeOutput` | time_output.dfy | reading `maxresident` from time(1)'s report |
| `Memory` | memory.dfy | `Runner::Memory#run`, `run_benchmark`, `execute` |

## Model

| member | source | states |
|---|---|---|
| Text.RStrip | lib/benchmark_driver/config.rb:43 | `rstrip` returns a prefix of its input. The prefix does not end in whitespace or NUL, and every character removed was whitespace or NUL. |
| Text.RStripIdempotent | lib/benchmark_driver/config.rb:43 | A description that is already stripped is left unchanged by stripping it again. |
| Text.RStripUnique | lib/benchmark_driver/config.rb:43 | Any prefix with those properties is the `rstrip` result, so stripping is fully determined. |
| Text.DecimalRoundTrip | lib/benchmark_driver/runner/memory.rb:126 | The loop bound interpolated into the script reads back as the same number. |
| Text.CanonicalDecimal | lib/benchmark_driver/runner/memory.rb:126 | Conversely, a digit string without leading zeros is exactly how `#{times}` spells its value. |
| Config.DefaultConfig | lib/benchmark_driver/config.rb:14-48 | The default configuration projects to a runner configuration the runners can rely on: at least one executable, every command non-empty, a positive repeat count and run duration, and a non-negative verbosity. |
| Config.DefaultValues | lib/benchmark_driver/config.rb:14-48 | The defaults are `ips`, `compare`, no filters, repeat count 1, run duration 3 and verbose 0. The single default executable is named after the Ruby version and runs the Ruby binary. |
| Config.ToRunnerConfig | lib/benchmark_driver/config.rb:25-30 | The runner configuration carries exactly the executables, the repeat count, the run duration and the verbosity of the full configuration. |
| Config.RunnerConfigIsSubset | lib/benchmark_driver/config.rb:5-30 | `RunnerConfig`'s fields are a subset of `Config`'s. Projecting after writing back gives the runner configuration again. Writing back what was projected changes nothing. The other options are never disturbed. |
| Config.Describe | lib/benchmark_driver/config.rb:42-44 | With an empty cache, `description` starts `command + ['-v']` exactly once and caches the right-stripped output, which never ends in whitespace. With a full cache it starts nothing and returns the cached text. |
| Config.DescribeOnce | lib/benchmark_driver/config.rb:36-44 | Two calls start the child once in total. The second call returns the first answer even if the child would now answer differently. |
| Config.ExecutableCell.Description | lib/benchmark_driver/config.rb:42-44 | The same, as a mutable cell: after any call the cache holds the returned description. |
| Protocol.ParseSession | lib/benchmark_driver/output.rb:7-16 | Whenever the parse of a trace succeeds, flattening the session gives back exactly that trace. |
| Protocol.ParseJobs | lib/benchmark_driver/output.rb:10-16 | Parsing job scopes consumes a prefix whose flattening is the job blocks. What it leaves does not start another job scope. |
| Protocol.ParseContexts | lib/benchmark_driver/output.rb:11-16 | Parsing context scopes consumes a prefix whose flattening is the context blocks. What it leaves does not start another context scope. |
| Protocol.ParseJobsComplete | lib/benchmark_driver/output.rb:10-16 | Parsing the flattening of any job blocks, followed by anything that does not open a job, returns those blocks and that remainder. |
| Protocol.SessionRoundTrip | lib/benchmark_driver/output.rb:7-16 | Every session in the grammar is recovered from its trace: `metrics=`, an optional warmup phase, then the benchmark phase, each phase holding jobs, contexts and reports. |
| Protocol.WellFormedIffSession | lib/benchmark_driver/output.rb:7-16 | A trace follows the documented order if and only if it is the flattening of some session, and that session is unique. |
| Output.Fields | lib/benchmark_driver/output.rb:35 | Splitting on `_` yields one more field than there are underscores, and no field contains `_`. Joining the fields back with `_` gives the input, so the fields are exactly the text between underscores. |
| Output.Capitalize | lib/benchmark_driver/output.rb:35 | A capitalised segment keeps its length. Its first character is upper-cased, and every later character is lower-cased. |
| Output.CamelCase | lib/benchmark_driver/output.rb:35 | The character-by-character reference for camelising drops every `_`, so the result is shorter by exactly the number of underscores. |
| Output.Camelize | lib/benchmark_driver/output.rb:35 | `split('_').map(&:capitalize).join` equals the character-by-character reference. Its result has no `_` and its length is the input's minus the number of `_` characters. |
| Output.SplitCapitalizeIsCamelCase | lib/benchmark_driver/output.rb:35 | Splitting, capitalising each field and joining agrees with the reference on every input, including leading, doubled and trailing underscores. |
| Output.NewOutput | lib/benchmark_driver/output.rb:29-41 | A type containing `:` fails with an ArgumentError and no lookups. Otherwise the plugin is required first. A missing plugin fails with a LoadError after that one `require`, and `const_get` is never reached. With the plugin loaded, the camelised class is looked up next, and a missing class fails with a NameError for that name. Construction succeeds exactly when the plugin exists and defines the camelised class, and the formatter then gets the job and context names. |
| Output.ColonRejectedBeforeLookup | lib/benchmark_driver/output.rb:30-32 | For a type with `:` the outcome does not depend on what is installed, and the error is an ArgumentError. |
| Output.WithWarmupIsPhase | lib/benchmark_driver/output.rb:48-50 | `with_warmup` around job scopes is exactly the grammar's warm-up phase, and it reads back as that phase when the benchmark phase follows. |
| Output.MetricsForwarded | lib/benchmark_driver/output.rb:44-54 | The metrics given to `metrics=` reach the parsed session unchanged, followed by the benchmark phase's jobs and no warmup. |
| Output.ReportBuildsOneResult | lib/benchmark_driver/output.rb:77-85 | A `report` call with only values builds exactly one result, with no duration, no loop count and an empty environment. |
| Output.WithJobScopesBlock | lib/benchmark_driver/output.rb:57-62 | `with_job` opens exactly one job scope, built from the name, around the block's events. |
| Output.WithContextScopesBlock | lib/benchmark_driver/output.rb:68-73 | `with_context` opens exactly one context scope, built from the name and executable, around the block's events. |
| Script.WhileLoop | lib/benchmark_driver/runner/memory.rb:117-134 | `while_loop` fails with an ArgumentError quoting `times.inspect` exactly when `times` is not a positive Integer. For 1 it returns the content verbatim. For more, it returns a counted loop whose body and bound parse back as the given ones. The parser accepts the bound only in its unpadded decimal spelling. |
| Script.LoopRoundTrip | lib/benchmark_driver/runner/memory.rb:124-130 | The loop text reads back as the body and the bound: the counter starts at 0 and is compared strictly against `times`. |
| Script.ParseLoopCanonical | lib/benchmark_driver/runner/memory.rb:124-130 | The only text that parses as a loop with a given body and bound is the loop with the bound written as `#{times}` writes it. A zero-padded bound, which Ruby would read as octal, does not parse. |
| Script.Render | lib/benchmark_driver/runner/memory.rb:107-113 | `render` fails exactly when the loop count is invalid. Otherwise it starts with the prelude line and ends with the teardown line. With loop count 1 it is the plain prelude/script/teardown concatenation. With more, the middle parses back as the script and the count. |
| TimeOutput.MaxResidentBytes | lib/benchmark_driver/runner/memory.rb:75-78 | Reading time(1)'s report succeeds exactly when some line has the `maxresident)k` shape. The value is then a whole number of kilobytes, in bytes. Otherwise the error carries the output. |
| TimeOutput.TimeLineRoundTrip | lib/benchmark_driver/runner/memory.rb:75-78 | For any report line with `kb` before `maxresident)k`, the result is `kb * 1000` bytes. This holds whatever blank run `\s+` matches before the digits: one space, several, or tabs. The user, system and elapsed fields and any later lines do not matter. |
| TimeOutput.TabSeparatedLine | lib/benchmark_driver/runner/memory.rb:75-78 | A line with a tab and a space before 5 kilobytes gives 5000 bytes. |
| TimeOutput.DocumentedExample | lib/benchmark_driver/runner/memory.rb:75-78 | A typical GNU time report with 12345 kilobytes gives 12345000 bytes. |
| TimeOutput.FirstLineWins | lib/benchmark_driver/runner/memory.rb:75 | When a line matches, later lines are never consulted. |
| TimeOutput.NonMatchingLineSkipped | lib/benchmark_driver/runner/memory.rb:75 | A line without the shape is skipped and the search continues on the next line. |
| TimeOutput.ZeroPaddingIgnored | lib/benchmark_driver/runner/memory.rb:78 | Under the decimal reading, leading zeros do not change the value. |
| TimeOutput.OctalMisreading | lib/benchmark_driver/runner/memory.rb:78 | As written, a zero-padded `010` is read as octal and yields 8000 bytes. The decimal reading yields 10000. |
| TimeOutput.OctalRefusesNine | lib/benchmark_driver/runner/memory.rb:78 | As written, a zero-padded `09` is not a valid Integer and the measurement fails. |
| TimeOutput.RubyInteger | lib/benchmark_driver/runner/memory.rb:78 | `Kernel#Integer` on digits is decimal when there is no leading zero. With a leading zero it is octal, and it raises an ArgumentError exactly when an 8 or a 9 follows. |
| TimeOutput.MaxResidentBytesAsWritten | lib/benchmark_driver/runner/memory.rb:75-78 | The conversion as the source writes it fails on an unmatched report like the corrected one. On an unpadded field it equals the corrected reading, and any value it gives is whole kilobytes in bytes. |
| TimeOutput.AsWrittenAgreesUnpadded | lib/benchmark_driver/runner/memory.rb:75-78 | On every line time(1) prints with `kb` written unpadded, after any blank run, the source as written gives `kb * 1000` bytes, as the corrected reading does. |
| TimeOutput.PaddedLineRoundTrip | lib/benchmark_driver/runner/memory.rb:75-78 | The corrected reading gives `kb * 1000` bytes even when the field carries leading zeros, where the source as written reads octal. |
| Memory.NormalizeJobs | lib/benchmark_driver/runner/memory.rb:36-40 | Normalisation keeps length and order. A job with no loop count gets 1 with everything else unchanged, and a job with a count is kept as is. Afterwards every job has a count. If none lacked one, the list is untouched. |
| Memory.NormalizeIdempotent | lib/benchmark_driver/runner/memory.rb:36-40 | Normalising an already normalised list changes nothing. |
| Memory.Execute | lib/benchmark_driver/runner/memory.rb:94-100 | `execute` returns the child's output exactly when it exited successfully. Otherwise it fails naming the command and the status. |
| Memory.Puts | lib/benchmark_driver/runner/memory.rb:88 | The written file is the text plus at most one newline, and always ends in a newline. It is the text unchanged exactly when the text already ends in a newline. |
| Memory.RenderEndsInNewline | lib/benchmark_driver/runner/memory.rb:88 | A rendered script already ends in a newline, so the file holds exactly the rendered text. |
| Memory.RunBenchmark | lib/benchmark_driver/runner/memory.rb:63-79 | A job with a non-positive or missing count fails before anything runs. A failing child fails with its command line `/usr/bin/time <command> <path>` and status. A successful child's output is read with the time(1) parser, in the corrected decimal reading. A measurement is a whole number of kilobytes, in bytes. |
| Memory.RunBenchmarkMeasures | lib/benchmark_driver/runner/memory.rb:63-78 | End to end: a successful child whose report says `kb` kilobytes gives `kb * 1000` bytes. |
| Memory.RunExecs | lib/benchmark_driver/runner/memory.rb:45-52 | Per executable, in order: the Repeater is asked with `larger_better: false`, and only after it answers is a context scope opened holding one report with the value under `METRIC` and the job's loop count. The events are exactly those context scopes. A Repeater failure stops the loop with that failure, and every request before it was answered and reported. |
| Memory.RunJobs | lib/benchmark_driver/runner/memory.rb:43-54 | One job scope per job, in order, around its contexts. On success the requests are exactly those planned and every one succeeded. On failure the requests are a prefix of the plan, every one before the last succeeded, and the last failed with the run's error. So the run stops at the first failure. |
| Memory.Run | lib/benchmark_driver/runner/memory.rb:28-56 | A non-Linux host fails before `metrics=` and before any measurement. On Linux the trace starts with `metrics=` of `[METRIC]` and then the benchmark phase. On success the trace parses as a session with no warmup and one job per normalised job, and each job has one context and one report per runnable executable. Any failure is the Repeater's, unchanged. It is the error of the last request made, and every request before it succeeded, so the run stops at the first failure. |
| Memory.ReportedLoopCounts | lib/benchmark_driver/runner/memory.rb:36-50 | Every reported result carries a loop count: the job's own, or 1 when the job had none. |
| Memory.RunReportsMeasurements | lib/benchmark_driver/runner/memory.rb:45-51 | With a Repeater that runs the measurement block once, every value a successful run reports is the value `run_benchmark` measured for that job and executable. |
| Memory.PlannedIndex | lib/benchmark_driver/runner/memory.rb:43-46 | Every runnable executable of every job has a place in the plan of requests the two loops make. |
| Memory.FailureStopsRun | lib/benchmark_driver/runner/memory.rb:43-48 | For any Repeater, a planned request that it fails makes the run fail. The requests made are a prefix of the plan, all but the last were answered, and the run's error is the last one's failure. |
| Memory.MeasurementFailureAborts | lib/benchmark_driver/runner/memory.rb:43-48 | With that Repeater, a measurement that fails for any planned job and executable makes the run fail. The measurements made are a prefix of the plan, all but the last succeeded, and the run's error is the last one's failure: the first failing measurement in plan order. |
| Memory.BadLoopCountAborts | lib/benchmark_driver/runner/memory.rb:46-47 | A job whose loop count is zero or negative aborts the run as soon as it has an executable to run on, because `while_loop` raises inside the measurement block. |
| Memory.FailingChildAborts | lib/benchmark_driver/runner/memory.rb:46-47 | A child that exits unsuccessfully for any planned job and executable aborts the run. |

## Left out

- I/O is not modelled. This covers the `Tempfile`, `IO.popen`, `$?`, `/usr/bin/time` itself and `Etc.uname`. They appear only as the parameters listed above, because their behaviour lies outside the repository.
- The verbose echo of the script to standard output (`memory.rb:82-85`) is left out. It does not affect the result or the protocol.
- Memory.Run: the Repeater is an opaque parameter `repeat` that answers a request naming the configuration, the job, the executable and `larger_better: false`. It is not handed the measurement block of `memory.rb:46-48` as a value. That block is determined by the request's job and executable, and `Memory.MeasureOnce` is the Repeater that runs it once. `BenchmarkDriver::Repeater` is not part of this model, so nothing is claimed about how often it runs the block or how it picks among repetitions. Only under `MeasureOnce` are the run's values and failures tied to `run_benchmark`, by Memory.RunReportsMeasurements and Memory.MeasurementFailureAborts.
- `Job#runnable_execs` is an arbitrary function from the job and the configured executables to the executables to run.
- The concrete formatters, `BenchmarkDriver::Struct`, `Job`, `DefaultJob`, `Metric`, `Context` and `Result` are not part of this model. The facade's view of them is a record per class, and the formatter is a registry entry.
- Plugin loading by `require` and `const_get` is modelled as membership in an explicit `Registry`. The model records the lookups in order.
- Memory.Run, Memory.RunJobs and Memory.RunExecs do not describe the trace after a failure. Which scopes a formatter closes while an exception unwinds depends on the formatter, so after a failure only the trace's first two events and the requests made are stated.
- TimeOutput.MaxResidentBytes checks only the tail of the regular expression in `memory.rb:75`:
  - the run of digits right before `maxresident)k` at the end of a line;
  - the whitespace before it;
  - a non-blank field before that which contains `(` before its last character.

  The user, system and elapsed fields before it are not checked. `\s+` is taken not to cross a line break. So the model may accept a line the regular expression rejects.
- TimeOutput.MaxResidentBytes reads the kilobyte field in decimal, which is the corrected reading (see Findings). The source's `Integer(...)` reads a zero-padded field in octal. TimeOutput.MaxResidentBytesAsWritten models that, and the two agree on every unpadded field.
- Memory.RunBenchmark uses the corrected decimal reading, TimeOutput.MaxResidentBytes. It therefore differs from `memory.rb:78` on a zero-padded field: `010` gives 10000 bytes, not 8000, and `09` gives 9000 bytes where the source raises.
- TimeOutput.MaxResidentBytes: its own contract states only that the value is whole kilobytes in bytes. The value itself, the captured kilobytes times 1000, is stated by TimeOutput.TimeLineRoundTrip and TimeOutput.PaddedLineRoundTrip for every line of the expected shape with any blank run before the digits.
- TimeOutput.MaxResidentBytes uses integers. The source multiplies by the float `1000.0`, so the Ruby value is a Float. The model keeps it as the integer number of bytes.
- The source's handling of a report that does not match (`memory.rb:76`) does not raise the intended message:
  - `match_data` is `nil` then, so `match_data[:maxresident]` raises NoMethodError;
  - the message refers to an undefined `out`.

  The model gives the failure as `UnexpectedTimeFormat(output)` and claims nothing about the message text.
- The source and its documentation disagree on the failed-command message. Memory.Execute follows the source (`memory.rb:97`): the message names the shell-joined command and the exit status, not the child's output. Memory.Execute keeps the exit status as an `ExitStatus`. So a child killed by a signal, where Ruby's `exitstatus` is `nil`, is distinguishable.
- Output.Capitalize, Text.Upper and Text.Lower map ASCII letters only. Ruby's `capitalize` also maps non-ASCII letters.
- Text.RStrip strips ASCII whitespace and NUL, as Ruby's `rstrip` does.
- Script.WhileLoop models a non-Integer `times` only through its `inspect` text. A Float such as `2.0` fails here just as in the source.
- Keyword construction of the `Struct` records (`Config.new(...)` with defaults merged in) is represented by Config.DefaultConfig and by plain datatype constructors.
- Output.WithWarmup and Output.WithBenchmark have no contract of their own. Their effect is stated by Output.WithWarmupIsPhase and Output.MetricsForwarded.
- Nothing about executing the generated Ruby program is claimed. In particular, that the loop runs `times` iterations is stated only as the shape of the text.

## Findings

| source | as written | input that shows it | evidently intended | confidence | as-written member | corrected member |
|---|---|---|---|---|---|---|
| lib/benchmark_driver/runner/memory.rb:78 | `Integer(match_data[:maxresident])` uses `Kernel#Integer`, which reads a string with a leading `0` as octal and rejects `8` and `9` after it. | A time(1) line ending `(0avgdata 010maxresident)k` gives 8000 bytes instead of 10000. With `09` the measurement raises ArgumentError. | A decimal reading of the kilobyte count, e.g. `Integer(s, 10)` or `to_i`. | medium, not executed: GNU time prints the count without zero padding, so the input needs a time(1) that pads | TimeOutput.OctalMisreading | TimeOutput.PaddedLineRoundTrip |

=== FILE: config.dfy ===
/** The configuration records: the full CLI `Config`, the `RunnerConfig`
    subset handed to runners, and `Executable` with its memoised
    `description`. */
module Config {
  import opened Wrappers
  import opened Text

  /** One interpreter under test: a display name and a command prefix. */
  datatype Executable = Executable(name: string, command: seq<string>)

  /** All CLI options. `paths` has no default, so it stays `nil` until set;
      filters are kept as their regular-expression sources. */
  datatype Config = Config(
    runnerType: string,
    outputType: string,
    paths: Option<seq<string>>,
    executables: seq<Executable>,
    filters: seq<string>,
    repeatCount: int,
    runDuration: int,
    verbose: int)

  /** The part of `Config` a runner receives. */
  datatype RunnerConfig = RunnerConfig(
    executables: seq<Executable>,
    repeatCount: int,
    runDuration: int,
    verbose: int)

  /** The invariants the rest of the system relies on: something to run,
      every command non-empty, at least one repetition, a positive duration. */
  predicate ValidRunnerConfig(rc: RunnerConfig) {
    && |rc.executables| >= 1
    && (forall i :: 0 <= i < |rc.executables| ==> |rc.executables[i].command| >= 1)
    && rc.repeatCount >= 1
    && rc.runDuration >= 1
    && rc.verbose >= 0
  }

  /** The defaults table, with the default executable list, which is the
      running interpreter: its `RUBY_VERSION` and its binary path. */
  function DefaultConfig(rubyVersion: string, rubyBinary: string): (c: Config)
    ensures ValidRunnerConfig(ToRunnerConfig(c))
  {
    Config(
      runnerType := "ips",
      outputType := "compare",
      paths := None,
      executables := [Executable(rubyVersion, [rubyBinary])],
      filters := [],
      repeatCount := 1,
      runDuration := 3,
      verbose := 0)
  }

  /** `RunnerConfig` as the projection of `Config` onto the runner's fields. */
  function ToRunnerConfig(c: Config): (rc: RunnerConfig)
    ensures rc.executables == c.executables && rc.repeatCount == c.repeatCount
    ensures rc.runDuration == c.runDuration && rc.verbose == c.verbose
  {
    RunnerConfig(c.executables, c.repeatCount, c.runDuration, c.verbose)
  }

  /** Replaces the runner's fields of `c`, keeping every other option. */
  function WithRunnerConfig(c: Config, rc: RunnerConfig): Config {
    c.(executables := rc.executables, repeatCount := rc.repeatCount,
       runDuration := rc.runDuration, verbose := rc.verbose)
  }

  /** `RunnerConfig` is a field subset of `Config`: projecting loses only the
      non-runner options, and the runner's options can be written back
      without disturbing anything else. */
  lemma RunnerConfigIsSubset(c: Config, rc: RunnerConfig)
    ensures ToRunnerConfig(WithRunnerConfig(c, rc)) == rc
    ensures WithRunnerConfig(c, ToRunnerConfig(c)) == c
    ensures WithRunnerConfig(c, rc).runnerType == c.runnerType
    ensures WithRunnerConfig(c, rc).outputType == c.outputType
    ensures WithRunnerConfig(c, rc).paths == c.paths
    ensures WithRunnerConfig(c, rc).filters == c.filters
  {
  }

  /** The documented default values. */
  lemma DefaultValues(rubyVersion: string, rubyBinary: string)
    ensures var c := DefaultConfig(rubyVersion, rubyBinary);
      && c.runnerType == "ips" && c.outputType == "compare" && c.filters == []
      && c.repeatCount == 1 && c.runDuration == 3 && c.verbose == 0
      && c.executables == [Executable(rubyVersion, [rubyBinary])]
  {
  }

  /** The state of the memo after one `description` call. */
  datatype Memo = Memo(description: string, cache: Option<string>, invoked: seq<seq<string>>)

  /** The argument vector `description` runs: the command with `-v` appended. */
  function VersionCommand(e: Executable): seq<string> {
    e.command + ["-v"]
  }

  /** `Executable#description`: the right-stripped output of `command -v`,
      computed on the first call only. `popen` stands for the child process
      and `invoked` lists the argument vectors it was started with. */
  function Describe(e: Executable, cache: Option<string>, popen: seq<string> -> string): (m: Memo)
    ensures |m.invoked| <= 1
    ensures m.cache == Some(m.description)
    ensures cache.Some? ==> m.description == cache.value && m.invoked == []
    ensures cache.None? ==> m.invoked == [e.command + ["-v"]]
    ensures cache.None? ==> m.description == RStrip(popen(VersionCommand(e)))
    ensures cache.None? ==> m.description <= popen(e.command + ["-v"])
    ensures cache.None? ==> |m.description| == 0 || !IsStripSpace(m.description[|m.description| - 1])
  {
    match cache
    case Some(d) => Memo(d, cache, [])
    case None =>
      var d := RStrip(popen(VersionCommand(e)));
      Memo(d, Some(d), [VersionCommand(e)])
  }

  /** Two calls in a row start the child once; the second returns the first
      answer even if the child would now print something else. */
  lemma DescribeOnce(e: Executable, popen1: seq<string> -> string, popen2: seq<string> -> string)
    ensures var m1 := Describe(e, None, popen1);
      var m2 := Describe(e, m1.cache, popen2);
      && m2.description == m1.description
      && m1.invoked + m2.invoked == [VersionCommand(e)]
      && m2.cache == m1.cache
  {
  }

  /** An `Executable` with its private cache cell. Name and command are
      constants; only the cell is ever written, and only once. */
  class ExecutableCell {
    const executable: Executable
    var cache: Option<string>

    constructor (executable: Executable)
      ensures this.executable == executable && cache == None
    {
      this.executable := executable;
      cache := None;
    }

    method Description(popen: seq<string> -> string) returns (d: string, invoked: seq<seq<string>>)
      modifies this
      ensures old(cache).Some? ==> d == old(cache).value && invoked == []
      ensures old(cache).None? ==> invoked == [VersionCommand(executable)] && d == RStrip(popen(VersionCommand(executable)))
      ensures cache == Some(d)
    {
      var m := Describe(executable, cache, popen);
      cache := m.cache;
      d := m.description;
      invoked := m.invoked;
    }
  }
}

=== FILE: errors.dfy ===
/** The exceptions raised by the modelled code, one constructor per `raise`
    site (or per library call that raises). */
module Errors {

  /** What `$?` records about a finished child process. */
  datatype ExitStatus = Exited(code: int) | Signaled(signal: int) {

    /** `Process::Status#success?`: exited normally with status 0. */
    predicate Success() {
      Exited? && code == 0
    }
  }

  datatype Error =
    | UnexpectedTimes(inspect: string)                  // ArgumentError from `while_loop`
    | UnsupportedHost(sysname: string)                  // RuntimeError: memory metric needs Linux time(1)
    | ExecFailed(argv: seq<string>, status: ExitStatus) // RuntimeError: the child did not succeed
    | UnexpectedTimeFormat(output: string)              // the time(1) line did not match
    | InvalidInteger(digits: string)                    // ArgumentError from `Kernel#Integer`
    | ColonInOutputType(outputType: string)             // ArgumentError from `Output#initialize`
    | MissingPlugin(feature: string)                    // LoadError from `require`
    | MissingFormatter(constant: string)                // NameError from `const_get`
  {
    predicate IsArgumentError() {
      UnexpectedTimes? || InvalidInteger? || ColonInOutputType?
    }
  }
}

=== FILE: memory.dfy ===
/** The memory runner (`BenchmarkDriver::Runner::Memory`): measures the peak
    resident set size of each job under each executable with time(1) and
    reports it through the output protocol.

    The host's operating-system name, the child processes, the temporary
    script file's path and the Repeater are parameters: `spawn` answers one
    child process given its argument vector and the script file's contents,
    `repeat` answers one `Repeater.with_repeat` call. */
module Memory {
  import opened Wrappers
  import opened Text
  import opened Errors
  import opened Config
  import Protocol
  import Output
  import Script
  import TimeOutput

  /** The only metric this runner reports; smaller is better. */
  const METRIC: Protocol.Metric := Protocol.Metric("Max resident set size", "bytes", false, "larger")

  /** A benchmark job; `loopCount` is `nil` until the runner fills it in. */
  datatype Job = Job(name: string, prelude: string, script: string, teardown: string, loopCount: Option<int>)

  /* ---------- Loop-count normalisation ---------- */

  function NormalizeJob(job: Job): Job {
    if job.loopCount.Some? then job else job.(loopCount := Some(1))
  }

  /** Jobs without a loop count get loop count 1; when every job has one,
      the list is left as it is. */
  function NormalizeJobs(jobs: seq<Job>): (r: seq<Job>)
    ensures |r| == |jobs|
    ensures forall i :: 0 <= i < |jobs| && jobs[i].loopCount.None? ==> r[i] == jobs[i].(loopCount := Some(1))
    ensures forall i :: 0 <= i < |jobs| && jobs[i].loopCount.Some? ==> r[i] == jobs[i]
    ensures forall i :: 0 <= i < |r| ==> r[i].loopCount.Some?
    ensures (forall i :: 0 <= i < |jobs| ==> jobs[i].loopCount.Some?) ==> r == jobs
  {
    if exists i :: 0 <= i < |jobs| && jobs[i].loopCount.None? then
      seq(|jobs|, i requires 0 <= i < |jobs| => NormalizeJob(jobs[i]))
    else jobs
  }

  /** Normalising twice changes nothing more. */
  lemma NormalizeIdempotent(jobs: seq<Job>)
    ensures NormalizeJobs(NormalizeJobs(jobs)) == NormalizeJobs(jobs)
  {
  }

  /* ---------- One measurement ---------- */

  /** How a child process ended: its combined stdout and stderr, and `$?`. */
  datatype ProcessOutcome = ProcessOutcome(output: string, status: ExitStatus)

  /** `execute`: the child's output, or an error naming the command and the
      status when it did not succeed. */
  function Execute(argv: seq<string>, outcome: ProcessOutcome): (r: Result<string, Error>)
    ensures r.Success? <==> outcome.status.Success()
    ensures r.Success? ==> r.value == outcome.output
    ensures r.Failure? ==> r.error == ExecFailed(argv, outcome.status) && !r.error.IsArgumentError()
  {
    if outcome.status.Success() then Success(outcome.output) else Failure(ExecFailed(argv, outcome.status))
  }

  /** What `IO#puts` writes: the text, plus a newline unless it ends in one. */
  function Puts(s: string): (w: string)
    ensures s <= w && |w| - |s| <= 1
    ensures |w| > 0 && w[|w| - 1] == '\n'
    ensures (|s| > 0 && s[|s| - 1] == '\n') <==> w == s
  {
    if |s| > 0 && s[|s| - 1] == '\n' then s else s + "\n"
  }

  function ScriptOf(job: Job): Script.BenchmarkScript {
    var times := match job.loopCount
      case Some(n) => Script.Integer(n)
      case None => Script.Nil;
    Script.BenchmarkScript(job.prelude, job.script, job.teardown, times)
  }

  /** The command line: time(1), the executable's command, the script file. */
  function TimeCommand(exec: Executable, path: string): seq<string> {
    ["/usr/bin/time"] + exec.command + [path]
  }

  /** `run_benchmark`: render the script, run it under time(1) and read the
      peak resident size in bytes from what the child printed. */
  function RunBenchmark(job: Job, exec: Executable, path: string, spawn: (seq<string>, string) -> ProcessOutcome): (r: Result<int, Error>)
    ensures !(job.loopCount.Some? && job.loopCount.value > 0) ==> r.Failure? && r.error.UnexpectedTimes?
    ensures Script.Render(ScriptOf(job)).Success? ==>
      var outcome := spawn(TimeCommand(exec, path), Script.Render(ScriptOf(job)).value);
      && (!outcome.status.Success() ==> r == Failure(ExecFailed(TimeCommand(exec, path), outcome.status)))
      && (outcome.status.Success() ==> r == TimeOutput.MaxResidentBytes(outcome.output))
    ensures r.Success? ==> r.value >= 0 && r.value % 1000 == 0
  {
    var script :- Script.Render(ScriptOf(job));
    var argv := TimeCommand(exec, path);
    RenderEndsInNewline(ScriptOf(job));
    var output :- Execute(argv, spawn(argv, Puts(script)));
    var bytes :- TimeOutput.MaxResidentBytes(output);
    Success(bytes)
  }

  /** The rendered script always ends in a newline, so the file the child
      reads holds exactly the rendered text. */
  lemma RenderEndsInNewline(b: Script.BenchmarkScript)
    requires Script.Render(b).Success?
    ensures Puts(Script.Render(b).value) == Script.Render(b).value
  {
    var text := Script.Render(b).value;
    assert EndsWith(text, "\n" + b.teardown + "\n");
    assert text[|text| - 1] == ("\n" + b.teardown + "\n")[|b.teardown| + 1];
  }

  /** End to end: a successful child whose time(1) line reports `kb`
      kilobytes yields `kb * 1000` bytes, whatever the other fields say. */
  lemma RunBenchmarkMeasures(job: Job, exec: Executable, path: string,
                             spawn: (seq<string>, string) -> ProcessOutcome,
                             front: string, avg: string, sep: string, kb: nat, rest: string)
    requires job.loopCount.Some? && job.loopCount.value > 0
    requires '\n' !in front && '\n' !in avg
    requires |avg| > 0 && forall i :: 0 <= i < |avg| ==> TimeOutput.IsNonSpace(avg[i])
    requires TimeOutput.BlankRun(sep)
    requires spawn(TimeCommand(exec, path), Script.Render(ScriptOf(job)).value)
      == ProcessOutcome(TimeOutput.TimeLine(front, avg, sep, NatToString(kb)) + "\n" + rest, Exited(0))
    ensures RunBenchmark(job, exec, path, spawn) == Success(kb * 1000)
  {
    TimeOutput.TimeLineRoundTrip(front, avg, sep, kb, rest);
  }

  /* ---------- The run ---------- */

  /** One `Repeater.with_repeat(config:, larger_better:)` call, for one job
      and one executable. */
  datatype RepeatRequest = RepeatRequest(config: RunnerConfig, job: Job, exec: Executable, largerBetter: bool)

  /** The requests for one job, one per runnable executable, in order. */
  function JobRequests(config: RunnerConfig, job: Job, execs: seq<Executable>): seq<RepeatRequest> {
    seq(|execs|, k requires 0 <= k < |execs| => RepeatRequest(config, job, execs[k], false))
  }

  /** Every request of a whole run, job by job. */
  function PlannedRequests(config: RunnerConfig, jobs: seq<Job>, runnable: (Job, seq<Executable>) -> seq<Executable>): seq<RepeatRequest> {
    if |jobs| == 0 then []
    else JobRequests(config, jobs[0], runnable(jobs[0], config.executables)) + PlannedRequests(config, jobs[1..], runnable)
  }

  /** Every runnable executable of every job has its place in the plan. */
  lemma {:induction false} PlannedIndex(config: RunnerConfig, jobs: seq<Job>,
                                        runnable: (Job, seq<Executable>) -> seq<Executable>, i: int, k: int)
    returns (j: nat)
    requires 0 <= i < |jobs|
    requires 0 <= k < |runnable(jobs[i], config.executables)|
    ensures j < |PlannedRequests(config, jobs, runnable)|
    ensures PlannedRequests(config, jobs, runnable)[j] == RepeatRequest(config, jobs[i], runnable(jobs[i], config.executables)[k], false)
    decreases i
  {
    var head := JobRequests(config, jobs[0], runnable(jobs[0], config.executables));
    assert PlannedRequests(config, jobs, runnable) == head + PlannedRequests(config, jobs[1..], runnable);
    if i == 0 {
      j := k;
    } else {
      var later := PlannedIndex(config, jobs[1..], runnable, i - 1, k);
      assert jobs[1..][i - 1] == jobs[i];
      j := |head| + later;
    }
  }

  /** The context scope reported for one executable: a single result holding
      the measured value under `METRIC` and the job's loop count. */
  function MemoryContext(exec: Executable, loopCount: Option<int>, value: int): Protocol.ContextBlock {
    Protocol.ContextBlock(Protocol.Context(exec.name, exec), [Protocol.Result(map[METRIC := value], None, loopCount, map[])])
  }

  /** A context scope as this runner reports it: the Repeater answered the
      request for this job and executable with a measurement, and the scope
      holds exactly that value. */
  predicate ContextReported(b: Protocol.ContextBlock, config: RunnerConfig, job: Job, exec: Executable,
                            repeat: RepeatRequest -> Result<int, Error>)
  {
    var answer := repeat(RepeatRequest(config, job, exec, false));
    answer.Success? && b == MemoryContext(exec, job.loopCount, answer.value)
  }

  /** A job scope as this runner reports it: named after the job, one context
      per runnable executable in order, each carrying what the Repeater
      returned for it. */
  predicate JobReported(b: Protocol.JobBlock, config: RunnerConfig, job: Job, execs: seq<Executable>,
                        repeat: RepeatRequest -> Result<int, Error>)
  {
    && b.job == Protocol.JobId(job.name)
    && |b.contexts| == |execs|
    && forall k :: 0 <= k < |execs| ==> ContextReported(b.contexts[k], config, job, execs[k], repeat)
  }

  /** A whole session as this runner reports it. */
  predicate MemorySession(s: Protocol.Session, config: RunnerConfig, jobs: seq<Job>,
                          runnable: (Job, seq<Executable>) -> seq<Executable>,
                          repeat: RepeatRequest -> Result<int, Error>)
  {
    && s.metrics == [METRIC]
    && s.warmup.None?
    && |s.benchmark| == |jobs|
    && forall i :: 0 <= i < |jobs| ==>
         JobReported(s.benchmark[i], config, jobs[i], runnable(jobs[i], config.executables), repeat)
  }

  /** Every request in `reqs` was answered with a measurement. */
  predicate Answered(repeat: RepeatRequest -> Result<int, Error>, reqs: seq<RepeatRequest>) {
    forall j :: 0 <= j < |reqs| ==> repeat(reqs[j]).Success?
  }

  /** Two runs' requests laid end to end, the first complete and answered:
      the result follows the concatenated plan, ends with the second run's
      last request, and is answered wherever the second run's is. */
  lemma RequestsConcat(repeat: RepeatRequest -> Result<int, Error>,
                       a: seq<RepeatRequest>, b: seq<RepeatRequest>, planA: seq<RepeatRequest>, planB: seq<RepeatRequest>)
    requires a == planA && b <= planB
    requires Answered(repeat, a)
    ensures a + b <= planA + planB
    ensures b == planB ==> a + b == planA + planB
    ensures |b| > 0 ==> (a + b)[|a + b| - 1] == b[|b| - 1]
    ensures Answered(repeat, b) ==> Answered(repeat, a + b)
    ensures |b| > 0 && Answered(repeat, b[..|b| - 1]) ==> Answered(repeat, (a + b)[..|a + b| - 1])
  {
    if |b| > 0 {
      assert (a + b)[..|a + b| - 1] == a + b[..|b| - 1];
    }
  }

  /** A context scope reported in front of the scopes of the remaining
      executables. */
  lemma ContextsReportedCons(config: RunnerConfig, job: Job, execs: seq<Executable>,
                             repeat: RepeatRequest -> Result<int, Error>,
                             b: Protocol.ContextBlock, bs: seq<Protocol.ContextBlock>)
    requires 0 < |execs| && |bs| < |execs|
    requires ContextReported(b, config, job, execs[0], repeat)
    requires forall k :: 0 <= k < |bs| ==> ContextReported(bs[k], config, job, execs[1..][k], repeat)
    ensures forall k :: 0 <= k < |[b] + bs| ==> ContextReported(([b] + bs)[k], config, job, execs[k], repeat)
  {
    forall k | 0 <= k < |[b] + bs|
      ensures ContextReported(([b] + bs)[k], config, job, execs[k], repeat)
    {
      if k > 0 {
        assert ([b] + bs)[k] == bs[k - 1] && execs[k] == execs[1..][k - 1];
      }
    }
  }

  /** A job scope reported in front of the scopes of the remaining jobs. */
  lemma JobsReportedCons(config: RunnerConfig, jobs: seq<Job>,
                         runnable: (Job, seq<Executable>) -> seq<Executable>,
                         repeat: RepeatRequest -> Result<int, Error>,
                         b: Protocol.JobBlock, bs: seq<Protocol.JobBlock>)
    requires |jobs| > 0 && |bs| == |jobs| - 1
    requires JobReported(b, config, jobs[0], runnable(jobs[0], config.executables), repeat)
    requires forall i :: 0 <= i < |bs| ==>
      JobReported(bs[i], config, jobs[1..][i], runnable(jobs[1..][i], config.executables), repeat)
    ensures forall i :: 0 <= i < |jobs| ==>
      JobReported(([b] + bs)[i], config, jobs[i], runnable(jobs[i], config.executables), repeat)
  {
    forall i | 0 <= i < |jobs|
      ensures JobReported(([b] + bs)[i], config, jobs[i], runnable(jobs[i], config.executables), repeat)
    {
      if i > 0 {
        assert ([b] + bs)[i] == bs[i - 1] && jobs[i] == jobs[1..][i - 1];
      }
    }
  }

  /** What the runner emits for one measured executable: `with_context`
      around one `report` call, which is exactly the context scope
      `MemoryContext` describes. */
  function ContextReport(exec: Executable, loopCount: Option<int>, value: int): (e: seq<Protocol.Event>)
    ensures e == Protocol.ContextBlockEvents(MemoryContext(exec, loopCount, value))
  {
    var block := MemoryContext(exec, loopCount, value);
    assert Protocol.ReportEvents(block.reports) == [Protocol.Report(block.reports[0])] + Protocol.ReportEvents([]);
    Output.WithContext(exec.name, exec, Output.Report(map[METRIC := value], loopCount := loopCount))
  }

  datatype ExecsRun = ExecsRun(events: seq<Protocol.Event>, blocks: seq<Protocol.ContextBlock>,
                               requests: seq<RepeatRequest>, error: Option<Error>)

  /** What the loop over one job's executables leaves behind: the events
      are its context scopes, its requests follow the plan in order, it
      stops at the first failed request, and every request before that one
      was answered and reported in a context of its own. */
  predicate ExecsRunFollows(r: ExecsRun, config: RunnerConfig, job: Job, execs: seq<Executable>,
                            repeat: RepeatRequest -> Result<int, Error>)
  {
    && r.events == Protocol.ContextEvents(r.blocks)
    && r.requests <= JobRequests(config, job, execs)
    && (r.error.None? ==> |r.requests| == |execs| && Answered(repeat, r.requests))
    && (r.error.Some? ==>
          && |r.requests| > 0
          && repeat(r.requests[|r.requests| - 1]) == Failure(r.error.value)
          && Answered(repeat, r.requests[..|r.requests| - 1]))
    && |r.blocks| == (if r.error.Some? then |r.requests| - 1 else |r.requests|)
    && forall k :: 0 <= k < |r.blocks| ==> ContextReported(r.blocks[k], config, job, execs[k], repeat)
  }

  /** One measured executable in front of the loop over the rest. */
  lemma ExecsStep(config: RunnerConfig, job: Job, execs: seq<Executable>,
                  repeat: RepeatRequest -> Result<int, Error>, value: int, rest: ExecsRun)
    requires |execs| > 0
    requires repeat(RepeatRequest(config, job, execs[0], false)) == Success(value)
    requires ExecsRunFollows(rest, config, job, execs[1..], repeat)
    ensures ExecsRunFollows(ExecsRun(ContextReport(execs[0], job.loopCount, value) + rest.events,
                                     [MemoryContext(execs[0], job.loopCount, value)] + rest.blocks,
                                     [RepeatRequest(config, job, execs[0], false)] + rest.requests,
                                     rest.error),
                            config, job, execs, repeat)
  {
    var request := RepeatRequest(config, job, execs[0], false);
    var block := MemoryContext(execs[0], job.loopCount, value);
    Protocol.ContextEventsCons(block, rest.blocks);
    ContextsReportedCons(config, job, execs, repeat, block, rest.blocks);
    assert JobRequests(config, job, execs) == [request] + JobRequests(config, job, execs[1..]);
    RequestsConcat(repeat, [request], rest.requests, [request], JobRequests(config, job, execs[1..]));
  }

  /** The inner loop of `run` over one job's runnable executables: measure,
      then open the context and report. */
  function RunExecs(config: RunnerConfig, job: Job, execs: seq<Executable>,
                    repeat: RepeatRequest -> Result<int, Error>): (r: ExecsRun)
    ensures ExecsRunFollows(r, config, job, execs, repeat)
    decreases |execs|
  {
    if |execs| == 0 then ExecsRun([], [], [], None)
    else
      var request := RepeatRequest(config, job, execs[0], false);
      match repeat(request)
      case Failure(e) =>
        ExecsRun([], [], [request], Some(e))
      case Success(value) =>
        var rest := RunExecs(config, job, execs[1..], repeat);
        ExecsStep(config, job, execs, repeat, value, rest);
        ExecsRun(ContextReport(execs[0], job.loopCount, value) + rest.events,
                 [MemoryContext(execs[0], job.loopCount, value)] + rest.blocks,
                 [request] + rest.requests, rest.error)
  }

  datatype JobsRun = JobsRun(events: seq<Protocol.Event>, blocks: seq<Protocol.JobBlock>,
                             requests: seq<RepeatRequest>, error: Option<Error>)

  /** What the loop over the jobs leaves behind: its requests follow the
      plan in order and stop at the first failed one, every request before
      that one was answered, and without a failure it made every planned
      request and reported one job scope per job. */
  predicate JobsRunFollows(r: JobsRun, config: RunnerConfig, jobs: seq<Job>,
                           runnable: (Job, seq<Executable>) -> seq<Executable>,
                           repeat: RepeatRequest -> Result<int, Error>)
  {
    && r.requests <= PlannedRequests(config, jobs, runnable)
    && (r.error.None? ==> r.requests == PlannedRequests(config, jobs, runnable) && Answered(repeat, r.requests))
    && (r.error.Some? ==>
          && |r.requests| > 0
          && repeat(r.requests[|r.requests| - 1]) == Failure(r.error.value)
          && Answered(repeat, r.requests[..|r.requests| - 1]))
    && (r.error.None? ==>
          && r.events == Protocol.JobEvents(r.blocks)
          && |r.blocks| == |jobs|
          && forall i :: 0 <= i < |jobs| ==>
               JobReported(r.blocks[i], config, jobs[i], runnable(jobs[i], config.executables), repeat))
  }

  /** A fully measured job in front of the loop over the remaining jobs. */
  lemma JobsStep(config: RunnerConfig, jobs: seq<Job>,
                 runnable: (Job, seq<Executable>) -> seq<Executable>,
                 repeat: RepeatRequest -> Result<int, Error>, inner: ExecsRun, rest: JobsRun)
    requires |jobs| > 0
    requires inner.error.None? && ExecsRunFollows(inner, config, jobs[0], runnable(jobs[0], config.executables), repeat)
    requires JobsRunFollows(rest, config, jobs[1..], runnable, repeat)
    ensures JobsRunFollows(JobsRun(Output.WithJob(jobs[0].name, inner.events) + rest.events,
                                   [Protocol.JobBlock(Protocol.JobId(jobs[0].name), inner.blocks)] + rest.blocks,
                                   inner.requests + rest.requests,
                                   rest.error),
                           config, jobs, runnable, repeat)
  {
    var execs := runnable(jobs[0], config.executables);
    var block := Protocol.JobBlock(Protocol.JobId(jobs[0].name), inner.blocks);
    assert PlannedRequests(config, jobs, runnable) == JobRequests(config, jobs[0], execs) + PlannedRequests(config, jobs[1..], runnable);
    assert inner.requests == JobRequests(config, jobs[0], execs);
    RequestsConcat(repeat, inner.requests, rest.requests, inner.requests, PlannedRequests(config, jobs[1..], runnable));
    if rest.error.None? {
      Protocol.JobEventsCons(block, rest.blocks);
      assert JobReported(block, config, jobs[0], execs, repeat);
      JobsReportedCons(config, jobs, runnable, repeat, block, rest.blocks);
    }
  }

  /** The outer loop of `run` over the jobs, each inside its own job scope. */
  function RunJobs(config: RunnerConfig, jobs: seq<Job>,
                   runnable: (Job, seq<Executable>) -> seq<Executable>,
                   repeat: RepeatRequest -> Result<int, Error>): (r: JobsRun)
    ensures JobsRunFollows(r, config, jobs, runnable, repeat)
    decreases |jobs|
  {
    if |jobs| == 0 then JobsRun([], [], [], None)
    else
      var job := jobs[0];
      var execs := runnable(job, config.executables);
      var inner := RunExecs(config, job, execs, repeat);
      if inner.error.Some? then
        assert PlannedRequests(config, jobs, runnable)
          == JobRequests(config, job, execs) + PlannedRequests(config, jobs[1..], runnable);
        JobsRun([Protocol.EnterJob(Protocol.JobId(job.name))] + inner.events, [], inner.requests, inner.error)
      else
        var rest := RunJobs(config, jobs[1..], runnable, repeat);
        JobsStep(config, jobs, runnable, repeat, inner, rest);
        JobsRun(Output.WithJob(job.name, inner.events) + rest.events,
                [Protocol.JobBlock(Protocol.JobId(job.name), inner.blocks)] + rest.blocks,
                inner.requests + rest.requests, rest.error)
  }

  /** A loop over the jobs that ran to the end, behind `metrics=` and inside
      `with_benchmark`, reads back as the session this runner reports. */
  lemma BenchmarkReported(config: RunnerConfig, jobs: seq<Job>,
                          runnable: (Job, seq<Executable>) -> seq<Executable>,
                          repeat: RepeatRequest -> Result<int, Error>, body: JobsRun)
    requires body.error.None? && JobsRunFollows(body, config, jobs, runnable, repeat)
    ensures
      var s := Protocol.ParseSession(Output.AssignMetrics([METRIC]) + Output.WithBenchmark(body.events));
      s.Some? && MemorySession(s.value, config, jobs, runnable, repeat)
  {
    Output.MetricsForwarded([METRIC], body.blocks);
  }

  datatype RunResult = RunResult(trace: seq<Protocol.Event>, requests: seq<RepeatRequest>, error: Option<Error>)

  /** `run(jobs)`. `sysname` is the host's operating-system name, `runnable`
      stands for `Job#runnable_execs`. */
  function Run(sysname: string, config: RunnerConfig, jobs: seq<Job>,
               runnable: (Job, seq<Executable>) -> seq<Executable>,
               repeat: RepeatRequest -> Result<int, Error>): (r: RunResult)
    ensures sysname != "Linux" ==> r == RunResult([], [], Some(UnsupportedHost(sysname)))
    ensures sysname == "Linux" ==>
      |r.trace| >= 2 && r.trace[0] == Protocol.SetMetrics([METRIC]) && r.trace[1] == Protocol.EnterBenchmark
    ensures r.requests <= PlannedRequests(config, NormalizeJobs(jobs), runnable)
    ensures r.error.None? ==> r.requests == PlannedRequests(config, NormalizeJobs(jobs), runnable)
    ensures r.error.Some? && sysname == "Linux" ==>
      |r.requests| > 0 && repeat(r.requests[|r.requests| - 1]) == Failure(r.error.value)
    ensures r.error.Some? && sysname == "Linux" ==> Answered(repeat, r.requests[..|r.requests| - 1])
    ensures r.error.None? ==> Answered(repeat, r.requests)
    ensures r.error.None? ==>
      var s := Protocol.ParseSession(r.trace);
      s.Some? && MemorySession(s.value, config, NormalizeJobs(jobs), runnable, repeat)
  {
    if sysname != "Linux" then RunResult([], [], Some(UnsupportedHost(sysname)))
    else
      var normalized := NormalizeJobs(jobs);
      var body := RunJobs(config, normalized, runnable, repeat);
      assert JobsRunFollows(body, config, normalized, runnable, repeat);
      if body.error.Some? then
        RunResult(Output.AssignMetrics([METRIC]) + [Protocol.EnterBenchmark] + body.events, body.requests, body.error)
      else
        BenchmarkReported(config, normalized, runnable, repeat, body);
        RunResult(Output.AssignMetrics([METRIC]) + Output.WithBenchmark(body.events), body.requests, None)
  }

  /** Every result a successful run reports carries a loop count: the job's
      own one, or 1 when the job had none. */
  lemma ReportedLoopCounts(sysname: string, config: RunnerConfig, jobs: seq<Job>,
                           runnable: (Job, seq<Executable>) -> seq<Executable>,
                           repeat: RepeatRequest -> Result<int, Error>, i: int, k: int)
    requires Run(sysname, config, jobs, runnable, repeat).error.None?
    requires 0 <= i < |jobs|
    requires 0 <= k < |runnable(NormalizeJobs(jobs)[i], config.executables)|
    ensures
      var s := Protocol.ParseSession(Run(sysname, config, jobs, runnable, repeat).trace).value;
      && |s.benchmark[i].contexts[k].reports| == 1
      && var loopCount := s.benchmark[i].contexts[k].reports[0].loopCount;
      && loopCount.Some?
      && loopCount == (if jobs[i].loopCount.Some? then jobs[i].loopCount else Some(1))
  {
    var s := Protocol.ParseSession(Run(sysname, config, jobs, runnable, repeat).trace).value;
    var job := NormalizeJobs(jobs)[i];
    assert JobReported(s.benchmark[i], config, job, runnable(job, config.executables), repeat);
  }

  /** Whatever the Repeater, a request of the plan that it fails makes the
      run fail: the run made a prefix of the planned requests, every one
      before its last was answered, and its error is the last one's failure. */
  lemma FailureStopsRun(config: RunnerConfig, jobs: seq<Job>,
                        runnable: (Job, seq<Executable>) -> seq<Executable>,
                        repeat: RepeatRequest -> Result<int, Error>, j: nat)
    requires j < |PlannedRequests(config, NormalizeJobs(jobs), runnable)|
    requires repeat(PlannedRequests(config, NormalizeJobs(jobs), runnable)[j]).Failure?
    ensures
      var r := Run("Linux", config, jobs, runnable, repeat);
      && r.error.Some?
      && |r.requests| > 0
      && r.requests <= PlannedRequests(config, NormalizeJobs(jobs), runnable)
      && (forall m :: 0 <= m < |r.requests| - 1 ==> repeat(r.requests[m]).Success?)
      && repeat(r.requests[|r.requests| - 1]) == Failure(r.error.value)
  {
    var planned := PlannedRequests(config, NormalizeJobs(jobs), runnable);
    var body := RunJobs(config, NormalizeJobs(jobs), runnable, repeat);
    RunIsJobsLoop(config, jobs, runnable, repeat);
    assert JobsRunFollows(body, config, NormalizeJobs(jobs), runnable, repeat);
    assert !Answered(repeat, planned);
    assert body.error.Some?;
    var done := body.requests[..|body.requests| - 1];
    assert Answered(repeat, done);
    forall m | 0 <= m < |body.requests| - 1
      ensures repeat(body.requests[m]).Success?
    {
      assert done[m] == body.requests[m];
    }
  }

  /** On Linux the run's requests and error are those of the loop over the
      normalized jobs. */
  lemma RunIsJobsLoop(config: RunnerConfig, jobs: seq<Job>,
                      runnable: (Job, seq<Executable>) -> seq<Executable>,
                      repeat: RepeatRequest -> Result<int, Error>)
    ensures
      var r := Run("Linux", config, jobs, runnable, repeat);
      var body := RunJobs(config, NormalizeJobs(jobs), runnable, repeat);
      r.requests == body.requests && r.error == body.error
  {
  }

  /* ---------- Measuring through the Repeater ---------- */

  /** A Repeater that runs the measurement block once: each request is
      answered by `run_benchmark` for the request's job and executable. */
  function MeasureOnce(path: string, spawn: (seq<string>, string) -> ProcessOutcome): RepeatRequest -> Result<int, Error> {
    (req: RepeatRequest) => RunBenchmark(req.job, req.exec, path, spawn)
  }

  lemma MeasureOnceAnswers(path: string, spawn: (seq<string>, string) -> ProcessOutcome, req: RepeatRequest)
    ensures MeasureOnce(path, spawn)(req) == RunBenchmark(req.job, req.exec, path, spawn)
  {
  }

  /** With the measuring Repeater, every value a successful run reports is
      the one `run_benchmark` measured for that job and executable. */
  lemma RunReportsMeasurements(sysname: string, config: RunnerConfig, jobs: seq<Job>,
                               runnable: (Job, seq<Executable>) -> seq<Executable>,
                               path: string, spawn: (seq<string>, string) -> ProcessOutcome, i: int, k: int)
    requires Run(sysname, config, jobs, runnable, MeasureOnce(path, spawn)).error.None?
    requires 0 <= i < |jobs|
    requires 0 <= k < |runnable(NormalizeJobs(jobs)[i], config.executables)|
    ensures
      var job := NormalizeJobs(jobs)[i];
      var exec := runnable(job, config.executables)[k];
      var s := Protocol.ParseSession(Run(sysname, config, jobs, runnable, MeasureOnce(path, spawn)).trace).value;
      && RunBenchmark(job, exec, path, spawn).Success?
      && s.benchmark[i].contexts[k] == MemoryContext(exec, job.loopCount, RunBenchmark(job, exec, path, spawn).value)
  {
    var s := Protocol.ParseSession(Run(sysname, config, jobs, runnable, MeasureOnce(path, spawn)).trace).value;
    var job := NormalizeJobs(jobs)[i];
    assert JobReported(s.benchmark[i], config, job, runnable(job, config.executables), MeasureOnce(path, spawn));
  }

  /** A measurement that fails anywhere in the plan makes the whole run fail.
      The run measures the plan in order and stops at the first failure: every
      measurement before the last one it made succeeded, and the run's error
      is the failure of that last one. */
  lemma MeasurementFailureAborts(config: RunnerConfig, jobs: seq<Job>,
                                 runnable: (Job, seq<Executable>) -> seq<Executable>,
                                 path: string, spawn: (seq<string>, string) -> ProcessOutcome, i: int, k: int)
    requires 0 <= i < |jobs|
    requires 0 <= k < |runnable(NormalizeJobs(jobs)[i], config.executables)|
    requires RunBenchmark(NormalizeJobs(jobs)[i], runnable(NormalizeJobs(jobs)[i], config.executables)[k], path, spawn).Failure?
    ensures
      var r := Run("Linux", config, jobs, runnable, MeasureOnce(path, spawn));
      && r.error.Some?
      && |r.requests| > 0
      && r.requests <= PlannedRequests(config, NormalizeJobs(jobs), runnable)
      && (forall j :: 0 <= j < |r.requests| - 1 ==>
            RunBenchmark(r.requests[j].job, r.requests[j].exec, path, spawn).Success?)
      && var last := r.requests[|r.requests| - 1];
      && RunBenchmark(last.job, last.exec, path, spawn) == Failure(r.error.value)
  {
    var repeat := MeasureOnce(path, spawn);
    var planned := PlannedRequests(config, NormalizeJobs(jobs), runnable);
    var j := PlannedIndex(config, NormalizeJobs(jobs), runnable, i, k);
    MeasureOnceAnswers(path, spawn, planned[j]);
    FailureStopsRun(config, jobs, runnable, repeat, j);
    var r := Run("Linux", config, jobs, runnable, repeat);
    forall m | 0 <= m < |r.requests| - 1
      ensures RunBenchmark(r.requests[m].job, r.requests[m].exec, path, spawn).Success?
    {
      MeasureOnceAnswers(path, spawn, r.requests[m]);
    }
    MeasureOnceAnswers(path, spawn, r.requests[|r.requests| - 1]);
  }

  /** A job whose loop count is zero or negative aborts the run as soon as
      it has an executable to run on: `while_loop` raises inside the
      measurement block. */
  lemma BadLoopCountAborts(config: RunnerConfig, jobs: seq<Job>,
                           runnable: (Job, seq<Executable>) -> seq<Executable>,
                           path: string, spawn: (seq<string>, string) -> ProcessOutcome, i: int)
    requires 0 <= i < |jobs|
    requires jobs[i].loopCount.Some? && jobs[i].loopCount.value <= 0
    requires |runnable(NormalizeJobs(jobs)[i], config.executables)| > 0
    ensures Run("Linux", config, jobs, runnable, MeasureOnce(path, spawn)).error.Some?
  {
    MeasurementFailureAborts(config, jobs, runnable, path, spawn, i, 0);
  }

  /** A child that exits unsuccessfully for any planned job and executable
      aborts the run. */
  lemma FailingChildAborts(config: RunnerConfig, jobs: seq<Job>,
                           runnable: (Job, seq<Executable>) -> seq<Executable>,
                           path: string, spawn: (seq<string>, string) -> ProcessOutcome, i: int, k: int)
    requires 0 <= i < |jobs|
    requires 0 <= k < |runnable(NormalizeJobs(jobs)[i], config.executables)|
    requires Script.Render(ScriptOf(NormalizeJobs(jobs)[i])).Success?
    requires
      var job := NormalizeJobs(jobs)[i];
      !spawn(TimeCommand(runnable(job, config.executables)[k], path), Script.Render(ScriptOf(job)).value).status.Success()
    ensures Run("Linux", config, jobs, runnable, MeasureOnce(path, spawn)).error.Some?
  {
    MeasurementFailureAborts(config, jobs, runnable, path, spawn, i, k);
  }
}

=== FILE: output.dfy ===
/** The output facade (`BenchmarkDriver::Output`): checks and camelises the
    output type, resolves the formatter through an explicit registry, and
    forwards the protocol calls to it, wrapping their arguments. */
module Output {
  import opened Wrappers
  import opened Text
  import opened Errors
  import opened Config
  import Protocol

  /* ---------- Camelising the output type ---------- */

  /** Every `_`-separated field of `s`, empty ones included (Ruby's
      `split('_')` before it drops trailing empty fields). */
  function Fields(s: string): (fs: seq<string>)
    ensures |fs| == Count(s, '_') + 1
    ensures forall i :: 0 <= i < |fs| ==> '_' !in fs[i]
    ensures JoinFields(fs) == s
  {
    if |s| == 0 then [""]
    else
      var rest := Fields(s[1..]);
      if s[0] == '_' then
        assert JoinFields([""] + rest) == "_" + JoinFields(rest) by {
          assert ([""] + rest)[1..] == rest;
        }
        [""] + rest
      else
        var fs := [[s[0]] + rest[0]] + rest[1..];
        assert fs[1..] == rest[1..];
        assert JoinFields(fs) == [s[0]] + JoinFields(rest) by {
          if |rest| > 1 {
            ConcatAssoc([s[0]], rest[0], "_" + JoinFields(rest[1..]));
          }
        }
        assert s == [s[0]] + s[1..];
        fs
  }

  /** `Array#join('_')`: the fields with one `_` between neighbours. */
  function JoinFields(fs: seq<string>): string {
    if |fs| == 0 then ""
    else if |fs| == 1 then fs[0]
    else fs[0] + "_" + JoinFields(fs[1..])
  }

  function DropTrailingEmpty(fs: seq<string>): (r: seq<string>)
    ensures r <= fs
    ensures |r| == 0 || r[|r| - 1] != ""
    ensures forall i :: |r| <= i < |fs| ==> fs[i] == ""
  {
    if |fs| > 0 && fs[|fs| - 1] == "" then DropTrailingEmpty(fs[..|fs| - 1]) else fs
  }

  /** `String#split('_')`: the fields, with trailing empty ones removed. */
  function Split(s: string): seq<string> {
    DropTrailingEmpty(Fields(s))
  }

  function LowerAll(w: string): (r: string)
    ensures |r| == |w|
    ensures forall i :: 0 <= i < |w| ==> r[i] == Lower(w[i])
  {
    if |w| == 0 then "" else [Lower(w[0])] + LowerAll(w[1..])
  }

  /** `String#capitalize` on ASCII: first character up, the rest down. */
  function Capitalize(w: string): (r: string)
    ensures |r| == |w|
    ensures |w| > 0 ==> r[0] == Upper(w[0]) && !IsLowerAscii(r[0])
    ensures forall i :: 1 <= i < |w| ==> r[i] == Lower(w[i]) && !IsUpperAscii(r[i])
  {
    if |w| == 0 then "" else [Upper(w[0])] + LowerAll(w[1..])
  }

  /** `map(&:capitalize).join`. */
  function CapitalizeJoin(fs: seq<string>): string {
    if |fs| == 0 then "" else Capitalize(fs[0]) + CapitalizeJoin(fs[1..])
  }

  /** `type.split('_').map(&:capitalize).join`: the formatter's constant
      name. It agrees with the character-by-character reference `CamelCase`,
      so it has no `_` and is shorter than the type by exactly its number of
      `_` characters. */
  function Camelize(outputType: string): (r: string)
    ensures r == CamelCase(outputType, true)
    ensures '_' !in r
    ensures |r| == |outputType| - Count(outputType, '_')
  {
    SplitCapitalizeIsCamelCase(outputType);
    CapitalizeJoin(Split(outputType))
  }

  /** An independent, character-by-character statement of camelising: every
      `_` disappears, a character right after the start or after a `_` is
      upper-cased, every other character is lower-cased. */
  function CamelCase(s: string, atStart: bool): (r: string)
    ensures '_' !in r
    ensures |r| == |s| - Count(s, '_')
  {
    if |s| == 0 then ""
    else if s[0] == '_' then CamelCase(s[1..], true)
    else [if atStart then Upper(s[0]) else Lower(s[0])] + CamelCase(s[1..], false)
  }

  lemma {:induction false} CapitalizeJoinAppend(a: seq<string>, b: seq<string>)
    ensures CapitalizeJoin(a + b) == CapitalizeJoin(a) + CapitalizeJoin(b)
  {
    if |a| > 0 {
      assert (a + b)[1..] == a[1..] + b;
      CapitalizeJoinAppend(a[1..], b);
    } else {
      assert a + b == b;
    }
  }

  /** Dropping the trailing empty fields does not change the joined result. */
  lemma {:induction false} CapitalizeJoinDropTrailing(fs: seq<string>)
    ensures CapitalizeJoin(DropTrailingEmpty(fs)) == CapitalizeJoin(fs)
    decreases |fs|
  {
    if |fs| > 0 && fs[|fs| - 1] == "" {
      var init := fs[..|fs| - 1];
      CapitalizeJoinDropTrailing(init);
      assert fs == init + [""];
      CapitalizeJoinAppend(init, [""]);
      assert CapitalizeJoin([""]) == "";
    }
  }

  /** The first field of `s` when it is not cut short at position 0. */
  lemma FieldsCons(s: string)
    requires |s| > 0 && s[0] != '_'
    ensures Fields(s)[0] == [s[0]] + Fields(s[1..])[0]
    ensures Fields(s)[1..] == Fields(s[1..])[1..]
  {
  }

  /** How the first field of a camelised run is cased. */
  function Lead(w: string, atStart: bool): string {
    if atStart then Capitalize(w) else LowerAll(w)
  }

  lemma LeadCons(c: char, w: string, atStart: bool)
    ensures Lead([c] + w, atStart) == [if atStart then Upper(c) else Lower(c)] + LowerAll(w)
  {
    assert ([c] + w)[1..] == w;
  }

  lemma {:induction false} CamelCaseFields(s: string, atStart: bool)
    ensures CamelCase(s, atStart) == Lead(Fields(s)[0], atStart) + CapitalizeJoin(Fields(s)[1..])
    decreases |s|
  {
    if |s| > 0 {
      if s[0] == '_' {
        CamelCaseFields(s[1..], true);
        assert Fields(s)[1..] == Fields(s[1..]);
        assert Fields(s)[0] == "";
      } else {
        CamelCaseLetter(s, atStart);
      }
    }
  }

  lemma {:induction false} CamelCaseLetter(s: string, atStart: bool)
    requires |s| > 0 && s[0] != '_'
    ensures CamelCase(s, atStart) == Lead(Fields(s)[0], atStart) + CapitalizeJoin(Fields(s)[1..])
    decreases |s|, 0
  {
    var rest := Fields(s[1..]);
    CamelCaseFields(s[1..], false);
    FieldsCons(s);
    LeadCons(s[0], rest[0], atStart);
    var c := if atStart then Upper(s[0]) else Lower(s[0]);
    var x := LowerAll(rest[0]);
    var y := CapitalizeJoin(rest[1..]);
    assert CamelCase(s[1..], false) == x + y;
    assert CamelCase(s, atStart) == [c] + (x + y);
    assert Lead(Fields(s)[0], atStart) == [c] + x;
    ConcatAssoc([c], x, y);
  }

  /** Splitting, capitalising each field and joining agrees with the
      character-by-character reference. */
  lemma SplitCapitalizeIsCamelCase(outputType: string)
    ensures CapitalizeJoin(Split(outputType)) == CamelCase(outputType, true)
  {
    var fs := Fields(outputType);
    CapitalizeJoinDropTrailing(fs);
    CamelCaseFields(outputType, true);
    assert fs == [fs[0]] + fs[1..];
  }

  /* ---------- Resolving the formatter ---------- */

  /** A load or constant-lookup step taken while resolving a formatter. */
  datatype Lookup = Require(feature: string) | ConstGet(constant: string)

  /** The loadable plugin features and the formatter classes they define,
      standing in for the load path and `BenchmarkDriver::Output`'s constants. */
  datatype Registry = Registry(features: set<string>, formatters: set<string>)

  /** A constructed formatter: which class, and the names it was given. */
  datatype Formatter = Formatter(kind: string, jobNames: seq<string>, contextNames: seq<string>)

  /** What `Output.new` does: the lookups it performs, in order, and the
      formatter it ends up with or the error it raises. */
  datatype Init = Init(lookups: seq<Lookup>, output: Result<Formatter, Error>)

  function PluginFeature(outputType: string): string {
    "benchmark_driver/output/" + outputType
  }

  /** `Output#initialize`. */
  function NewOutput(outputType: string, jobNames: seq<string>, contextNames: seq<string>, registry: Registry): (r: Init)
    ensures ':' in outputType <==> r.output == Failure(ColonInOutputType(outputType))
    ensures ':' in outputType ==> r.lookups == []
    ensures ':' !in outputType ==> |r.lookups| >= 1 && r.lookups[0] == Require(PluginFeature(outputType))
    ensures r.output.Success? <==>
      && ':' !in outputType
      && PluginFeature(outputType) in registry.features
      && Camelize(outputType) in registry.formatters
    ensures r.output.Success? ==>
      && r.output.value == Formatter(Camelize(outputType), jobNames, contextNames)
      && r.lookups == [Require(PluginFeature(outputType)), ConstGet(Camelize(outputType))]
    ensures ':' !in outputType && PluginFeature(outputType) !in registry.features ==>
      r == Init([Require(PluginFeature(outputType))], Failure(MissingPlugin(PluginFeature(outputType))))
    ensures ':' !in outputType && PluginFeature(outputType) in registry.features ==>
      && r.lookups == [Require(PluginFeature(outputType)), ConstGet(Camelize(outputType))]
      && (r.output.Failure? ==> r.output.error == MissingFormatter(Camelize(outputType)))
  {
    if ':' in outputType then
      Init([], Failure(ColonInOutputType(outputType)))
    else
      var feature := PluginFeature(outputType);
      if feature !in registry.features then
        Init([Require(feature)], Failure(MissingPlugin(feature)))
      else
        var camelized := Camelize(outputType);
        if camelized !in registry.formatters then
          Init([Require(feature), ConstGet(camelized)], Failure(MissingFormatter(camelized)))
        else
          Init([Require(feature), ConstGet(camelized)], Success(Formatter(camelized, jobNames, contextNames)))
  }

  /** A type with `:` is refused whatever is installed: the registry is
      never consulted. */
  lemma ColonRejectedBeforeLookup(outputType: string, jobNames: seq<string>, contextNames: seq<string>, r1: Registry, r2: Registry)
    requires ':' in outputType
    ensures NewOutput(outputType, jobNames, contextNames, r1) == NewOutput(outputType, jobNames, contextNames, r2)
    ensures NewOutput(outputType, jobNames, contextNames, r1).output.error.IsArgumentError()
  {
  }

  /* ---------- Forwarding the protocol calls ---------- */

  /** `metrics=`: the list reaches the formatter as given. */
  function AssignMetrics(metrics: seq<Protocol.Metric>): seq<Protocol.Event> {
    [Protocol.SetMetrics(metrics)]
  }

  function WithWarmup(block: seq<Protocol.Event>): seq<Protocol.Event> {
    [Protocol.EnterWarmup] + block + [Protocol.LeaveWarmup]
  }

  /** `with_warmup` around job scopes is the optional warm-up phase of the
      grammar, and it reads back as that phase whenever the benchmark phase
      follows. */
  lemma WithWarmupIsPhase(js: seq<Protocol.JobBlock>, rest: seq<Protocol.Event>)
    requires |rest| > 0 && rest[0] == Protocol.EnterBenchmark
    ensures WithWarmup(Protocol.JobEvents(js)) == Protocol.WarmupEvents(Some(js))
    ensures Protocol.ParseWarmup(WithWarmup(Protocol.JobEvents(js)) + rest) == Some((Some(js), rest))
  {
    Protocol.ParseWarmupComplete(Some(js), rest);
  }

  function WithBenchmark(block: seq<Protocol.Event>): seq<Protocol.Event> {
    [Protocol.EnterBenchmark] + block + [Protocol.LeaveBenchmark]
  }

  /** `with_job(name:)`: a job scope built from the name, around the block. */
  function WithJob(name: string, block: seq<Protocol.Event>): seq<Protocol.Event> {
    [Protocol.EnterJob(Protocol.JobId(name))] + block + [Protocol.LeaveJob]
  }

  /** `with_context(name:, executable:)`: a context scope around the block. */
  function WithContext(name: string, executable: Executable, block: seq<Protocol.Event>): seq<Protocol.Event> {
    [Protocol.EnterContext(Protocol.Context(name, executable))] + block + [Protocol.LeaveContext]
  }

  /** `report(values:, duration: nil, loop_count: nil, environment: {})`. */
  function Report(
    values: map<Protocol.Metric, int>,
    duration: Option<real> := None,
    loopCount: Option<int> := None,
    environment: map<string, string> := map[]): seq<Protocol.Event>
  {
    [Protocol.Report(Protocol.Result(values, duration, loopCount, environment))]
  }

  /** `report` hands the formatter exactly one result, and the arguments the
      caller leaves out take their documented defaults. */
  lemma ReportBuildsOneResult(values: map<Protocol.Metric, int>, rest: seq<Protocol.Event>)
    requires |rest| == 0 || !rest[0].Report?
    ensures Protocol.ParseReports(Report(values) + rest)
      == ([Protocol.Result(values, None, None, map[])], rest)
  {
    var r := Protocol.Result(values, None, None, map[]);
    assert Report(values) == Protocol.ReportEvents([r]);
    Protocol.ParseReportsComplete([r], rest);
  }

  /** `with_context` opens exactly one context scope, for the given name and
      executable, and the block's reports land inside it once. */
  lemma WithContextScopesBlock(name: string, executable: Executable, reports: seq<Protocol.Result>, rest: seq<Protocol.Event>)
    requires |rest| == 0 || !rest[0].EnterContext?
    ensures Protocol.ParseContexts(WithContext(name, executable, Protocol.ReportEvents(reports)) + rest)
      == Some(([Protocol.ContextBlock(Protocol.Context(name, executable), reports)], rest))
  {
    var c := Protocol.ContextBlock(Protocol.Context(name, executable), reports);
    assert Protocol.ContextEvents([c]) == WithContext(name, executable, Protocol.ReportEvents(reports));
    Protocol.ParseContextsComplete([c], rest);
  }

  /** `with_job` opens exactly one job scope, named after the job, and the
      block's contexts land inside it once. */
  lemma WithJobScopesBlock(name: string, contexts: seq<Protocol.ContextBlock>, rest: seq<Protocol.Event>)
    requires |rest| == 0 || !rest[0].EnterJob?
    ensures Protocol.ParseJobs(WithJob(name, Protocol.ContextEvents(contexts)) + rest)
      == Some(([Protocol.JobBlock(Protocol.JobId(name), contexts)], rest))
  {
    var j := Protocol.JobBlock(Protocol.JobId(name), contexts);
    assert Protocol.JobEvents([j]) == WithJob(name, Protocol.ContextEvents(contexts));
    Protocol.ParseJobsComplete([j], rest);
  }

  /** The metrics list passed to `metrics=` is the session's declared list,
      unchanged, and the calls `metrics=` then `with_benchmark` make a
      well-formed session. */
  lemma MetricsForwarded(metrics: seq<Protocol.Metric>, jobs: seq<Protocol.JobBlock>)
    ensures Protocol.ParseSession(AssignMetrics(metrics) + WithBenchmark(Protocol.JobEvents(jobs)))
      == Some(Protocol.Session(metrics, None, jobs))
  {
    var s := Protocol.Session(metrics, None, jobs);
    assert Protocol.SessionEvents(s) == AssignMetrics(metrics) + WithBenchmark(Protocol.JobEvents(jobs));
    Protocol.SessionRoundTrip(s);
  }
}

=== FILE: protocol.dfy ===
/** The reporting protocol between a runner and an output formatter, as the
    trace of calls the formatter receives. The documented call grammar is

      metrics=
      with_warmup           (optional)
        with_job(name:)
          with_context(name:, executable:)
            report(...)
      with_benchmark
        with_job(name:)
          with_context(name:, executable:)
            report(...)

    A block-scoped call becomes an Enter/Leave pair around the events of its
    block. `Session` is the same grammar as a tree, `SessionEvents` flattens a
    tree into its trace and `ParseSession` recovers the tree from a trace;
    a trace is well formed exactly when it parses. */
module Protocol {
  import opened Wrappers
  import opened Config
  import Text

  /** A static description of what is measured (not a measurement). */
  datatype Metric = Metric(name: string, unit: string, largerBetter: bool, worseWord: string)

  /** The job scope the facade builds from a job name alone. */
  datatype JobId = JobId(name: string)

  /** Which executable the enclosed reports belong to. */
  datatype Context = Context(name: string, executable: Executable)

  /** One reported measurement. Metric values are kept as integers. */
  datatype Result = Result(
    values: map<Metric, int>,
    duration: Option<real>,
    loopCount: Option<int>,
    environment: map<string, string>)

  /** One call received by the formatter. */
  datatype Event =
    | SetMetrics(metrics: seq<Metric>)
    | EnterWarmup | LeaveWarmup
    | EnterBenchmark | LeaveBenchmark
    | EnterJob(job: JobId) | LeaveJob
    | EnterContext(context: Context) | LeaveContext
    | Report(result: Result)

  datatype ContextBlock = ContextBlock(context: Context, reports: seq<Result>)

  datatype JobBlock = JobBlock(job: JobId, contexts: seq<ContextBlock>)

  /** A complete, well-nested run: declared metrics, an optional warm-up
      phase and exactly one benchmark phase. */
  datatype Session = Session(metrics: seq<Metric>, warmup: Option<seq<JobBlock>>, benchmark: seq<JobBlock>)

  function ReportEvents(rs: seq<Result>): seq<Event> {
    if |rs| == 0 then [] else [Report(rs[0])] + ReportEvents(rs[1..])
  }

  function ContextBlockEvents(c: ContextBlock): seq<Event> {
    [EnterContext(c.context)] + ReportEvents(c.reports) + [LeaveContext]
  }

  function ContextEvents(cs: seq<ContextBlock>): seq<Event> {
    if |cs| == 0 then [] else ContextBlockEvents(cs[0]) + ContextEvents(cs[1..])
  }

  function JobBlockEvents(j: JobBlock): seq<Event> {
    [EnterJob(j.job)] + ContextEvents(j.contexts) + [LeaveJob]
  }

  function JobEvents(js: seq<JobBlock>): seq<Event> {
    if |js| == 0 then [] else JobBlockEvents(js[0]) + JobEvents(js[1..])
  }

  function PhaseEvents(open: Event, close: Event, js: seq<JobBlock>): seq<Event> {
    [open] + JobEvents(js) + [close]
  }

  function WarmupEvents(warmup: Option<seq<JobBlock>>): seq<Event> {
    match warmup
    case None => []
    case Some(js) => PhaseEvents(EnterWarmup, LeaveWarmup, js)
  }

  /** The trace a formatter receives for a session. */
  function SessionEvents(s: Session): seq<Event> {
    [SetMetrics(s.metrics)] + WarmupEvents(s.warmup) + PhaseEvents(EnterBenchmark, LeaveBenchmark, s.benchmark)
  }

  /** Reads the longest run of reports at the front of `t`. */
  function ParseReports(t: seq<Event>): (p: (seq<Result>, seq<Event>))
    ensures ReportEvents(p.0) + p.1 == t
    ensures |p.1| == 0 || !p.1[0].Report?
    decreases |t|
  {
    if |t| > 0 && t[0].Report? then
      var (rs, rest) := ParseReports(t[1..]);
      assert ReportEvents([t[0].result] + rs) == [t[0]] + ReportEvents(rs);
      ([t[0].result] + rs, rest)
    else
      ([], t)
  }

  /** Reads the longest run of context scopes at the front of `t`; `None`
      when a scope is opened but not closed right after its reports. */
  function ParseContexts(t: seq<Event>): (p: Option<(seq<ContextBlock>, seq<Event>)>)
    ensures p.Some? ==> ContextEvents(p.value.0) + p.value.1 == t
    ensures p.Some? ==> |p.value.1| == 0 || !p.value.1[0].EnterContext?
    decreases |t|
  {
    if |t| > 0 && t[0].EnterContext? then
      var (rs, r1) := ParseReports(t[1..]);
      if |r1| > 0 && r1[0] == LeaveContext then
        var next := ParseContexts(r1[1..]);
        if next.None? then None
        else
          var b := ContextBlock(t[0].context, rs);
          ContextsCons(t, b, r1, next.value.0, next.value.1);
          Some(([b] + next.value.0, next.value.1))
      else None
    else Some(([], t))
  }

  lemma ContextsCons(t: seq<Event>, b: ContextBlock, r1: seq<Event>, cs: seq<ContextBlock>, rest: seq<Event>)
    requires |t| > 0 && t[0] == EnterContext(b.context)
    requires ReportEvents(b.reports) + r1 == t[1..]
    requires |r1| > 0 && r1[0] == LeaveContext
    requires ContextEvents(cs) + rest == r1[1..]
    ensures ContextEvents([b] + cs) + rest == t
  {
    assert ([b] + cs)[1..] == cs;
    calc {
      ContextEvents([b] + cs) + rest;
      ContextBlockEvents(b) + (ContextEvents(cs) + rest);
      ContextBlockEvents(b) + r1[1..];
      [t[0]] + (ReportEvents(b.reports) + ([r1[0]] + r1[1..]));
      { assert [r1[0]] + r1[1..] == r1; }
      [t[0]] + t[1..];
    }
  }

  lemma ContextEventsCons(b: ContextBlock, cs: seq<ContextBlock>)
    ensures ContextEvents([b] + cs) == ContextBlockEvents(b) + ContextEvents(cs)
  {
    assert ([b] + cs)[1..] == cs;
  }

  lemma JobEventsCons(b: JobBlock, js: seq<JobBlock>)
    ensures JobEvents([b] + js) == JobBlockEvents(b) + JobEvents(js)
  {
    assert ([b] + js)[1..] == js;
  }

  /** Reads the longest run of job scopes at the front of `t`. */
  function ParseJobs(t: seq<Event>): (p: Option<(seq<JobBlock>, seq<Event>)>)
    ensures p.Some? ==> JobEvents(p.value.0) + p.value.1 == t
    ensures p.Some? ==> |p.value.1| == 0 || !p.value.1[0].EnterJob?
    decreases |t|
  {
    if |t| > 0 && t[0].EnterJob? then
      var inner := ParseContexts(t[1..]);
      if inner.None? then None
      else
        var r1 := inner.value.1;
        if |r1| > 0 && r1[0] == LeaveJob then
          var next := ParseJobs(r1[1..]);
          if next.None? then None
          else
            var b := JobBlock(t[0].job, inner.value.0);
            JobsCons(t, b, r1, next.value.0, next.value.1);
            Some(([b] + next.value.0, next.value.1))
        else None
    else Some(([], t))
  }

  lemma JobsCons(t: seq<Event>, b: JobBlock, r1: seq<Event>, js: seq<JobBlock>, rest: seq<Event>)
    requires |t| > 0 && t[0] == EnterJob(b.job)
    requires ContextEvents(b.contexts) + r1 == t[1..]
    requires |r1| > 0 && r1[0] == LeaveJob
    requires JobEvents(js) + rest == r1[1..]
    ensures JobEvents([b] + js) + rest == t
  {
    assert ([b] + js)[1..] == js;
    calc {
      JobEvents([b] + js) + rest;
      JobBlockEvents(b) + (JobEvents(js) + rest);
      JobBlockEvents(b) + r1[1..];
      [t[0]] + (ContextEvents(b.contexts) + ([r1[0]] + r1[1..]));
      { assert [r1[0]] + r1[1..] == r1; }
      [t[0]] + t[1..];
    }
  }

  /** Reads one phase scope opened by `open` and closed by `close`. */
  function ParsePhase(t: seq<Event>, open: Event, close: Event): (p: Option<(seq<JobBlock>, seq<Event>)>)
    ensures p.Some? ==> PhaseEvents(open, close, p.value.0) + p.value.1 == t
  {
    if |t| > 0 && t[0] == open then
      match ParseJobs(t[1..])
      case None => None
      case Some((js, r1)) =>
        if |r1| > 0 && r1[0] == close then Some((js, r1[1..])) else None
    else None
  }

  /** Reads the warm-up phase if the trace opens one. */
  function ParseWarmup(t: seq<Event>): (p: Option<(Option<seq<JobBlock>>, seq<Event>)>)
    ensures p.Some? ==> WarmupEvents(p.value.0) + p.value.1 == t
  {
    if |t| > 0 && t[0] == EnterWarmup then
      var w := ParsePhase(t, EnterWarmup, LeaveWarmup);
      if w.None? then None else Some((Some(w.value.0), w.value.1))
    else
      assert WarmupEvents(None) + t == t;
      Some((None, t))
  }

  /** Recovers the session a trace was produced from, if there is one. */
  function ParseSession(t: seq<Event>): (s: Option<Session>)
    ensures s.Some? ==> SessionEvents(s.value) == t
  {
    if |t| == 0 || !t[0].SetMetrics? then None
    else
      var w := ParseWarmup(t[1..]);
      if w.None? then None
      else
        var b := ParsePhase(w.value.1, EnterBenchmark, LeaveBenchmark);
        if b.None? || |b.value.1| != 0 then None
        else
          var s := Session(t[0].metrics, w.value.0, b.value.0);
          SessionEventsOf(t, s, w.value.1, b.value.1);
          Some(s)
  }

  /** The pieces `ParseSession` reads, put back together, are the trace. */
  lemma SessionEventsOf(t: seq<Event>, s: Session, rest: seq<Event>, end: seq<Event>)
    requires |t| > 0 && t[0] == SetMetrics(s.metrics)
    requires WarmupEvents(s.warmup) + rest == t[1..]
    requires PhaseEvents(EnterBenchmark, LeaveBenchmark, s.benchmark) + end == rest && |end| == 0
    ensures SessionEvents(s) == t
  {
    assert t == [t[0]] + t[1..];
    assert PhaseEvents(EnterBenchmark, LeaveBenchmark, s.benchmark) == rest;
    Text.ConcatAssoc([t[0]], WarmupEvents(s.warmup), rest);
  }

  /** A trace that follows the documented call grammar. */
  predicate WellFormedTrace(t: seq<Event>) {
    ParseSession(t).Some?
  }

  lemma {:induction false} ParseReportsComplete(rs: seq<Result>, rest: seq<Event>)
    requires |rest| == 0 || !rest[0].Report?
    ensures ParseReports(ReportEvents(rs) + rest) == (rs, rest)
    decreases |rs|
  {
    if |rs| > 0 {
      assert ReportEvents(rs) + rest == [Report(rs[0])] + (ReportEvents(rs[1..]) + rest);
      ParseReportsComplete(rs[1..], rest);
      assert [rs[0]] + rs[1..] == rs;
    } else {
      assert ReportEvents(rs) + rest == rest;
    }
  }

  /** A scope's events followed by more events, regrouped around its body. */
  lemma ScopeRegroup(open: Event, body: seq<Event>, close: Event, after: seq<Event>)
    ensures [open] + body + [close] + after == [open] + (body + ([close] + after))
    ensures ([open] + (body + ([close] + after)))[1..] == body + ([close] + after)
    ensures ([close] + after)[1..] == after
  {
  }

  /** One unfolding of `ParseContexts` over a closed context scope. */
  lemma ParseContextsStep(t: seq<Event>, rs: seq<Result>, r1: seq<Event>, cs: seq<ContextBlock>, rest: seq<Event>)
    requires |t| > 0 && t[0].EnterContext?
    requires ParseReports(t[1..]) == (rs, r1)
    requires |r1| > 0 && r1[0] == LeaveContext
    requires ParseContexts(r1[1..]) == Some((cs, rest))
    ensures ParseContexts(t) == Some(([ContextBlock(t[0].context, rs)] + cs, rest))
  {
  }

  /** One unfolding of `ParseJobs` over a closed job scope. */
  lemma ParseJobsStep(t: seq<Event>, cs: seq<ContextBlock>, r1: seq<Event>, js: seq<JobBlock>, rest: seq<Event>)
    requires |t| > 0 && t[0].EnterJob?
    requires ParseContexts(t[1..]) == Some((cs, r1))
    requires |r1| > 0 && r1[0] == LeaveJob
    requires ParseJobs(r1[1..]) == Some((js, rest))
    ensures ParseJobs(t) == Some(([JobBlock(t[0].job, cs)] + js, rest))
  {
  }

  lemma {:induction false} ParseContextsComplete(cs: seq<ContextBlock>, rest: seq<Event>)
    requires |rest| == 0 || !rest[0].EnterContext?
    ensures ParseContexts(ContextEvents(cs) + rest) == Some((cs, rest))
    decreases |cs|
  {
    var t := ContextEvents(cs) + rest;
    if |cs| > 0 {
      var c := cs[0];
      var after := ContextEvents(cs[1..]) + rest;
      var tail := [LeaveContext] + after;
      assert t == ContextBlockEvents(c) + after by {
        Text.ConcatAssoc(ContextBlockEvents(c), ContextEvents(cs[1..]), rest);
      }
      ScopeRegroup(EnterContext(c.context), ReportEvents(c.reports), LeaveContext, after);
      ParseReportsComplete(c.reports, tail);
      ParseContextsComplete(cs[1..], rest);
      ParseContextsStep(t, c.reports, tail, cs[1..], rest);
      assert [ContextBlock(c.context, c.reports)] + cs[1..] == cs;
    } else {
      assert t == rest;
    }
  }

  lemma {:induction false} ParseJobsComplete(js: seq<JobBlock>, rest: seq<Event>)
    requires |rest| == 0 || !rest[0].EnterJob?
    ensures ParseJobs(JobEvents(js) + rest) == Some((js, rest))
    decreases |js|
  {
    var t := JobEvents(js) + rest;
    if |js| > 0 {
      var j := js[0];
      var after := JobEvents(js[1..]) + rest;
      var tail := [LeaveJob] + after;
      assert t == JobBlockEvents(j) + after by {
        Text.ConcatAssoc(JobBlockEvents(j), JobEvents(js[1..]), rest);
      }
      ScopeRegroup(EnterJob(j.job), ContextEvents(j.contexts), LeaveJob, after);
      ParseContextsComplete(j.contexts, tail);
      ParseJobsComplete(js[1..], rest);
      ParseJobsStep(t, j.contexts, tail, js[1..], rest);
      assert [JobBlock(j.job, j.contexts)] + js[1..] == js;
    } else {
      assert t == rest;
    }
  }

  lemma ParsePhaseComplete(open: Event, close: Event, js: seq<JobBlock>, rest: seq<Event>)
    requires !close.EnterJob? && !open.EnterJob?
    ensures ParsePhase(PhaseEvents(open, close, js) + rest, open, close) == Some((js, rest))
  {
    var t := PhaseEvents(open, close, js) + rest;
    assert t[1..] == JobEvents(js) + ([close] + rest);
    ParseJobsComplete(js, [close] + rest);
  }

  lemma ParseWarmupComplete(w: Option<seq<JobBlock>>, rest: seq<Event>)
    requires |rest| > 0 && rest[0] == EnterBenchmark
    ensures ParseWarmup(WarmupEvents(w) + rest) == Some((w, rest))
  {
    match w
    case None =>
      assert WarmupEvents(w) + rest == rest;
    case Some(js) =>
      ParsePhaseComplete(EnterWarmup, LeaveWarmup, js, rest);
  }

  lemma ParseSessionCompose(t: seq<Event>, s: Session, rest: seq<Event>)
    requires |t| > 0 && t[0] == SetMetrics(s.metrics)
    requires ParseWarmup(t[1..]) == Some((s.warmup, rest))
    requires ParsePhase(rest, EnterBenchmark, LeaveBenchmark) == Some((s.benchmark, []))
    ensures ParseSession(t) == Some(s)
  {
  }

  /** Every session's trace parses back to that session. */
  lemma SessionRoundTrip(s: Session)
    ensures ParseSession(SessionEvents(s)) == Some(s)
  {
    var bench := PhaseEvents(EnterBenchmark, LeaveBenchmark, s.benchmark);
    var after := WarmupEvents(s.warmup) + bench;
    var t := [SetMetrics(s.metrics)] + after;
    assert SessionEvents(s) == t;
    ParsePhaseComplete(EnterBenchmark, LeaveBenchmark, s.benchmark, []);
    assert bench + [] == bench;
    assert t[1..] == after;
    ParseWarmupComplete(s.warmup, bench);
    ParseSessionCompose(t, s, bench);
  }

  /** The grammar as a predicate on traces: a trace is well formed exactly
      when it is the trace of some session, and that session is unique. */
  lemma WellFormedIffSession(t: seq<Event>)
    ensures WellFormedTrace(t) <==> exists s :: SessionEvents(s) == t
    ensures forall s :: SessionEvents(s) == t ==> ParseSession(t) == Some(s)
  {
    forall s | SessionEvents(s) == t
      ensures ParseSession(t) == Some(s)
    {
      SessionRoundTrip(s);
    }
  }
}

=== FILE: script.dfy ===
/** `BenchmarkScript`: the text of the Ruby program the memory runner
    executes, assembled from a job's prelude, script, teardown and loop count. */
module Script {
  import opened Wrappers
  import opened Text
  import opened Errors

  /** The Ruby value passed as `times`: an Integer, `nil`, or anything else
      (kept as its `inspect` text). */
  datatype Times = Integer(n: int) | Nil | NonInteger(inspect: string)

  /** `times.inspect`, as quoted in the error message. */
  function Inspect(t: Times): string {
    match t
    case Integer(n) => IntToString(n)
    case Nil => "nil"
    case NonInteger(s) => s
  }

  /** The text before the loop bound: the counter starts at 0 and the loop
      runs while it is strictly below the bound. The `__bmdv_` prefix keeps
      the counter out of the way of the user's own variables. */
  const LoopHead: string := "__bmdv_i = 0\nwhile __bmdv_i < "

  /** Between the bound and the body: a newline and the body's indentation. */
  const BodyIndent: string := "\n  "

  /** After the body: the increment and the end of the loop. */
  const LoopTail: string := "\n  __bmdv_i += 1\nend\n"

  /** `while_loop(content, times)`: the body alone for one iteration, a
      counted `while` loop for more, an ArgumentError for anything that is
      not a positive Integer. */
  function WhileLoop(content: string, times: Times): (r: Result<string, Error>)
    ensures r.Failure? <==> !(times.Integer? && times.n > 0)
    ensures r.Failure? ==> r.error == UnexpectedTimes(Inspect(times)) && r.error.IsArgumentError()
    ensures times == Integer(1) ==> r == Success(content)
    ensures times.Integer? && times.n > 1 ==> ParseLoop(r.value) == Some((content, times.n))
  {
    if !times.Integer? || times.n <= 0 then
      Failure(UnexpectedTimes(Inspect(times)))
    else if times.n > 1 then
      LoopRoundTrip(content, times.n);
      Success(LoopHead + NatToString(times.n) + BodyIndent + content + LoopTail)
    else
      Success(content)
  }

  /** The number of decimal digits at the front of `s`. */
  function LeadingDigits(s: string): (k: nat)
    ensures k <= |s| && AllDigits(s[..k])
    ensures k < |s| ==> !IsDigit(s[k])
  {
    if |s| > 0 && IsDigit(s[0]) then
      var k := 1 + LeadingDigits(s[1..]);
      assert s[..k] == [s[0]] + s[1..][..k - 1];
      k
    else 0
  }

  /** The text strictly between `open` and `close`, if `s` has that shape. */
  function Between(s: string, open: string, close: string): Option<string> {
    if |s| >= |open| + |close| && s[..|open|] == open && s[|s| - |close|..] == close
    then Some(s[|open|..|s| - |close|])
    else None
  }

  /** Recovers the body and the iteration count from a generated loop: the
      inverse of `WhileLoop` on counts above one. The bound must be spelled
      as `Integer#to_s` spells it, so a zero-padded bound, which Ruby would
      read as octal, is refused. */
  function ParseLoop(text: string): Option<(string, nat)> {
    if !StartsWith(text, LoopHead) then None
    else
      var afterHead := text[|LoopHead|..];
      var d := LeadingDigits(afterHead);
      if d == 0 || (d > 1 && afterHead[0] == '0') then None
      else
        match Between(afterHead[d..], BodyIndent, LoopTail)
        case None => None
        case Some(body) => Some((body, DigitsValue(afterHead[..d], 10)))
  }

  lemma BetweenParts(s: string, open: string, close: string)
    requires Between(s, open, close).Some?
    ensures s == open + Between(s, open, close).value + close
  {
    var body := s[|open|..|s| - |close|];
    assert s == s[..|open|] + body + s[|s| - |close|..];
  }

  lemma BetweenOf(open: string, body: string, close: string)
    ensures Between(open + body + close, open, close) == Some(body)
  {
    var s := open + body + close;
    assert s[..|open|] == open;
    assert s[|s| - |close|..] == close;
    assert s[|open|..|s| - |close|] == body;
  }

  lemma {:induction false} LeadingDigitsOf(ds: string, rest: string)
    requires AllDigits(ds)
    requires |rest| > 0 && !IsDigit(rest[0])
    ensures LeadingDigits(ds + rest) == |ds|
    decreases |ds|
  {
    if |ds| > 0 {
      assert (ds + rest)[1..] == ds[1..] + rest;
      LeadingDigitsOf(ds[1..], rest);
    } else {
      assert ds + rest == rest;
    }
  }

  lemma LoopRoundTrip(content: string, k: nat)
    requires k > 1
    ensures ParseLoop(LoopHead + NatToString(k) + BodyIndent + content + LoopTail) == Some((content, k))
  {
    var digits := NatToString(k);
    var rest := BodyIndent + content + LoopTail;
    var text := LoopHead + digits + BodyIndent + content + LoopTail;
    ConcatAssoc(LoopHead, digits, BodyIndent + content + LoopTail);
    ConcatAssoc(LoopHead + digits, BodyIndent + content, LoopTail);
    ConcatAssoc(LoopHead + digits, BodyIndent, content);
    SplitConcat(LoopHead, digits + rest);
    var afterHead := text[|LoopHead|..];
    assert rest[0] == '\n';
    LeadingDigitsOf(digits, rest);
    SplitConcat(digits, rest);
    BetweenOf(BodyIndent, content, LoopTail);
    DecimalRoundTrip(k);
    assert afterHead[0] == digits[0];
  }

  /** Conversely, the only text `ParseLoop` accepts is the loop written with
      the bound's own decimal spelling: nothing else parses to the same pair. */
  lemma ParseLoopCanonical(text: string)
    requires ParseLoop(text).Some?
    ensures var (content, k) := ParseLoop(text).value;
      text == LoopHead + NatToString(k) + BodyIndent + content + LoopTail
  {
    var afterHead := text[|LoopHead|..];
    var d := LeadingDigits(afterHead);
    var digits := afterHead[..d];
    var body := Between(afterHead[d..], BodyIndent, LoopTail).value;
    CanonicalDecimal(digits);
    BetweenParts(afterHead[d..], BodyIndent, LoopTail);
    assert afterHead == digits + afterHead[d..];
    assert text == LoopHead + afterHead;
    ConcatAssoc(LoopHead, digits, BodyIndent + body + LoopTail);
    ConcatAssoc(LoopHead + digits, BodyIndent + body, LoopTail);
    ConcatAssoc(LoopHead + digits, BodyIndent, body);
  }

  /** The job fields a script is built from. */
  datatype BenchmarkScript = BenchmarkScript(prelude: string, script: string, teardown: string, loopCount: Times)

  /** `render`: prelude, loop, teardown, each on its own line. */
  function Render(b: BenchmarkScript): (r: Result<string, Error>)
    ensures r.Failure? <==> !(b.loopCount.Integer? && b.loopCount.n > 0)
    ensures r.Failure? ==> r.error == UnexpectedTimes(Inspect(b.loopCount))
    ensures r.Success? ==> StartsWith(r.value, b.prelude + "\n") && EndsWith(r.value, "\n" + b.teardown + "\n")
    ensures b.loopCount == Integer(1) ==> r == Success(b.prelude + "\n" + b.script + "\n" + b.teardown + "\n")
    ensures r.Success? && b.loopCount.n > 1 ==>
      |b.prelude| + 1 <= |r.value| - |b.teardown| - 2 &&
      ParseLoop(r.value[|b.prelude| + 1..|r.value| - |b.teardown| - 2]) == Some((b.script, b.loopCount.n))
  {
    var loop :- WhileLoop(b.script, b.loopCount);
    var text := b.prelude + "\n" + loop + "\n" + b.teardown + "\n";
    RenderParts(b.prelude, loop, b.teardown);
    Success(text)
  }

  lemma RenderParts(prelude: string, loop: string, teardown: string)
    ensures var text := prelude + "\n" + loop + "\n" + teardown + "\n";
      && StartsWith(text, prelude + "\n")
      && EndsWith(text, "\n" + teardown + "\n")
      && text[|prelude| + 1..|text| - |teardown| - 2] == loop
  {
    var text := prelude + "\n" + loop + "\n" + teardown + "\n";
    assert text == (prelude + "\n") + loop + ("\n" + teardown + "\n");
  }
}

=== FILE: text.dfy ===
/** Character and string helpers: ASCII case mapping, Ruby's whitespace
    classes, decimal rendering of integers (`Integer#to_s`) and digit strings. */
module Text {

  predicate IsDigit(c: char) {
    '0' <= c <= '9'
  }

  predicate AllDigits(s: string) {
    forall i :: 0 <= i < |s| ==> IsDigit(s[i])
  }

  /** Whitespace as matched by `\s` in a Ruby regular expression. */
  predicate IsRegexSpace(c: char) {
    c == ' ' || c == '\t' || c == '\n' || c == '\U{000B}' || c == '\U{000C}' || c == '\r'
  }

  /** Characters that `String#rstrip` removes: the regex whitespace and NUL. */
  predicate IsStripSpace(c: char) {
    IsRegexSpace(c) || c == '\0'
  }

  function DigitValue(c: char): (d: nat)
    requires IsDigit(c)
    ensures d < 10
  {
    c as int - '0' as int
  }

  function DigitChar(d: nat): (c: char)
    requires d < 10
    ensures IsDigit(c) && DigitValue(c) == d
  {
    (d + '0' as int) as char
  }

  /** `Integer#to_s` for a non-negative integer: shortest decimal spelling. */
  function NatToString(n: nat): (s: string)
    ensures |s| >= 1 && AllDigits(s)
    ensures s[0] == '0' ==> s == "0"
  {
    if n < 10 then [DigitChar(n)] else NatToString(n / 10) + [DigitChar(n % 10)]
  }

  /** `Integer#to_s` for any integer, and so also `Integer#inspect`. */
  function IntToString(i: int): (s: string)
    ensures |s| >= 1
    ensures i >= 0 <==> s[0] != '-'
  {
    if i < 0 then "-" + NatToString(-i) else NatToString(i)
  }

  /** The value of a digit string read in the given base, most significant digit first. */
  function DigitsValue(s: string, base: nat): nat
    requires AllDigits(s)
  {
    if |s| == 0 then 0 else DigitsValue(s[..|s| - 1], base) * base + DigitValue(s[|s| - 1])
  }

  /** Reading back what `NatToString` wrote gives the number again. */
  lemma {:induction false} DecimalRoundTrip(n: nat)
    ensures DigitsValue(NatToString(n), 10) == n
  {
    var s := NatToString(n);
    if n >= 10 {
      DecimalRoundTrip(n / 10);
      assert s[..|s| - 1] == NatToString(n / 10);
    }
  }

  /** A digit string without leading zeros is how `Integer#to_s` spells
      its own value: the converse of `DecimalRoundTrip`. */
  predicate Unpadded(s: string) {
    |s| >= 1 && AllDigits(s) && (|s| == 1 || s[0] != '0')
  }

  lemma {:induction false} CanonicalDecimal(s: string)
    requires Unpadded(s)
    ensures NatToString(DigitsValue(s, 10)) == s
    decreases |s|
  {
    if |s| == 1 {
      assert s[..0] == "";
    } else {
      var p := s[..|s| - 1];
      CanonicalDecimal(p);
      PositiveLead(p);
      var v := DigitsValue(s, 10);
      assert v / 10 == DigitsValue(p, 10) && v % 10 == DigitValue(s[|s| - 1]);
      assert s == p + [s[|s| - 1]];
    }
  }

  lemma {:induction false} PositiveLead(s: string)
    requires |s| >= 1 && AllDigits(s) && s[0] != '0'
    ensures DigitsValue(s, 10) >= 1
    decreases |s|
  {
    if |s| > 1 {
      PositiveLead(s[..|s| - 1]);
    }
  }

  function Count(s: string, c: char): (k: nat)
    ensures k <= |s|
  {
    if |s| == 0 then 0 else (if s[0] == c then 1 else 0) + Count(s[1..], c)
  }

  predicate StartsWith(s: string, prefix: string) {
    |prefix| <= |s| && s[..|prefix|] == prefix
  }

  predicate EndsWith(s: string, suffix: string) {
    |suffix| <= |s| && s[|s| - |suffix|..] == suffix
  }

  predicate IsLowerAscii(c: char) {
    'a' <= c <= 'z'
  }

  predicate IsUpperAscii(c: char) {
    'A' <= c <= 'Z'
  }

  /** ASCII upper-casing; every other character is left as it is. */
  function Upper(c: char): (u: char)
    ensures !IsLowerAscii(u)
    ensures IsLowerAscii(c) || u == c
  {
    if IsLowerAscii(c) then (c as int - 32) as char else c
  }

  /** ASCII lower-casing; every other character is left as it is. */
  function Lower(c: char): (l: char)
    ensures !IsUpperAscii(l)
    ensures IsUpperAscii(c) || l == c
  {
    if IsUpperAscii(c) then (c as int + 32) as char else c
  }

  /** `String#rstrip`: drop every trailing whitespace or NUL character. */
  function RStrip(s: string): (r: string)
    ensures r <= s
    ensures |r| == 0 || !IsStripSpace(r[|r| - 1])
    ensures forall i :: |r| <= i < |s| ==> IsStripSpace(s[i])
  {
    if |s| > 0 && IsStripSpace(s[|s| - 1]) then RStrip(s[..|s| - 1]) else s
  }

  /** Stripping twice strips nothing more. */
  lemma RStripIdempotent(s: string)
    ensures RStrip(RStrip(s)) == RStrip(s)
  {
  }

  /** The characterisation is unique: a prefix with a non-blank end and a
      blank remainder is exactly what `RStrip` returns. */
  lemma {:induction false} RStripUnique(s: string, r: string)
    requires r <= s
    requires |r| == 0 || !IsStripSpace(r[|r| - 1])
    requires forall i :: |r| <= i < |s| ==> IsStripSpace(s[i])
    ensures RStrip(s) == r
  {
    if |s| > |r| {
      assert IsStripSpace(s[|s| - 1]);
      assert r <= s[..|s| - 1];
      RStripUnique(s[..|s| - 1], r);
    } else {
      assert r == s;
    }
  }

  /* ---------- Sequence helpers ---------- */

  /** Cutting a concatenation at the seam gives back its two parts. */
  lemma SplitConcat<T>(a: seq<T>, b: seq<T>)
    ensures |a + b| - |b| == |a|
    ensures (a + b)[..|a|] == a && (a + b)[|a|..] == b
  {
  }

  lemma ConcatAssoc<T>(a: seq<T>, b: seq<T>, c: seq<T>)
    ensures a + (b + c) == (a + b) + c
  {
  }
}

=== FILE: time_output.dfy ===
/** Reading the peak resident set size out of what `/usr/bin/time` prints.
    The source matches each line against

      ^<user>user\s+<system>system\s+<m>:<s>elapsed.+\([^\s]+\s+<maxresident>maxresident\)k$

    This model checks the tail of that pattern, from the `(` on: a `(`, a
    run of non-blank characters, blanks, the digits, `maxresident)k` at the
    end of the line. The first line with that tail wins. */
module TimeOutput {
  import opened Wrappers
  import opened Text
  import opened Errors

  const Marker: string := "maxresident)k"

  predicate IsNonSpace(c: char) {
    !IsRegexSpace(c)
  }

  /** The length of the longest suffix of `s` whose characters satisfy `p`. */
  function TrailingCount(s: string, p: char -> bool): (k: nat)
    ensures k <= |s|
    ensures forall i :: |s| - k <= i < |s| ==> p(s[i])
    ensures k < |s| ==> !p(s[|s| - k - 1])
  {
    if |s| > 0 && p(s[|s| - 1]) then 1 + TrailingCount(s[..|s| - 1], p) else 0
  }

  /** The `maxresident` digits of one line, if the line has the expected tail. */
  function MaxResidentDigits(line: string): (r: Option<string>)
    ensures r.Some? ==> |r.value| > 0 && AllDigits(r.value)
  {
    if !EndsWith(line, Marker) then None else DigitsBeforeMarker(line[..|line| - |Marker|])
  }

  /** Given the text before `maxresident)k`: its trailing digits, provided a
      blank run, and before it a `(` followed by non-blank characters,
      precede them. */
  function DigitsBeforeMarker(pre: string): (r: Option<string>)
    ensures r.Some? ==> |r.value| > 0 && AllDigits(r.value) && EndsWith(pre, r.value)
  {
    var d := TrailingCount(pre, IsDigit);
    var pre1 := pre[..|pre| - d];
    var w := TrailingCount(pre1, IsRegexSpace);
    var pre2 := pre1[..|pre1| - w];
    var n := TrailingCount(pre2, IsNonSpace);
    if d == 0 || w == 0 || n < 2 || '(' !in pre2[|pre2| - n..|pre2| - 1] then None
    else Some(pre[|pre| - d..])
  }

  /** The index of the first newline of `s`, or `|s|` when there is none. */
  function LineEnd(s: string): (i: nat)
    ensures i <= |s| && '\n' !in s[..i]
    ensures i < |s| ==> s[i] == '\n'
  {
    if |s| == 0 || s[0] == '\n' then 0
    else
      var i := 1 + LineEnd(s[1..]);
      assert s[..i] == [s[0]] + s[1..][..i - 1];
      i
  }

  /** The digits of the first line of `s` that has the expected tail. */
  function FirstMaxResident(s: string): (r: Option<string>)
    ensures r.Some? ==> |r.value| > 0 && AllDigits(r.value)
    decreases |s|
  {
    var i := LineEnd(s);
    match MaxResidentDigits(s[..i])
    case Some(d) => Some(d)
    case None => if i == |s| then None else FirstMaxResident(s[i + 1..])
  }

  /** `run_benchmark`'s result: the captured kilobytes times 1000. A text
      without a matching line is an error. */
  function MaxResidentBytes(output: string): (r: Result<nat, Error>)
    ensures r.Success? <==> FirstMaxResident(output).Some?
    ensures r.Success? ==> r.value % 1000 == 0
    ensures r.Failure? ==> r.error == UnexpectedTimeFormat(output)
  {
    match FirstMaxResident(output)
    case None => Failure(UnexpectedTimeFormat(output))
    case Some(digits) => Success(DigitsValue(digits, 10) * 1000)
  }

  /** `Kernel#Integer` on a digit string, as the source calls it: a leading
      `0` on more than one digit makes the rest octal, and an octal string
      with an 8 or a 9 in it is an ArgumentError. */
  function RubyInteger(digits: string): (r: Result<nat, Error>)
    requires |digits| > 0 && AllDigits(digits)
    ensures Unpadded(digits) ==> r == Success(DigitsValue(digits, 10))
    ensures !Unpadded(digits) ==> (r.Success? <==> forall i :: 1 <= i < |digits| ==> digits[i] < '8')
    ensures !Unpadded(digits) && r.Success? ==> r.value == DigitsValue(digits[1..], 8)
    ensures r.Failure? ==> r.error == InvalidInteger(digits) && r.error.IsArgumentError()
  {
    if |digits| > 1 && digits[0] == '0' then
      if forall i :: 1 <= i < |digits| ==> digits[i] < '8'
      then Success(DigitsValue(digits[1..], 8))
      else Failure(InvalidInteger(digits))
    else Success(DigitsValue(digits, 10))
  }

  /** The conversion exactly as the source writes it, through `Integer(...)`.
      It agrees with `MaxResidentBytes` whenever the captured field is not
      zero-padded, and differs from it only on padded fields. */
  function MaxResidentBytesAsWritten(output: string): (r: Result<nat, Error>)
    ensures FirstMaxResident(output).None? ==> r == Failure(UnexpectedTimeFormat(output))
    ensures FirstMaxResident(output).Some? && Unpadded(FirstMaxResident(output).value) ==> r == MaxResidentBytes(output)
    ensures r.Success? ==> FirstMaxResident(output).Some? && r.value % 1000 == 0
  {
    match FirstMaxResident(output)
    case None => Failure(UnexpectedTimeFormat(output))
    case Some(digits) =>
      var kb :- RubyInteger(digits);
      Success(kb * 1000)
  }

  /** With a zero-padded field the source reads octal: `010` kilobytes come
      out as 8000 bytes where 10000 are meant. */
  lemma OctalMisreading()
    ensures MaxResidentBytesAsWritten(TimeLine("0:00.01elapsed ", "0avgdata", " ", "010") + "\n") == Success(8000)
    ensures MaxResidentBytes(TimeLine("0:00.01elapsed ", "0avgdata", " ", "010") + "\n") == Success(10000)
  {
    SampleLine("0:00.01elapsed ", "0avgdata", "010");
    OctalTen();
    assert DigitsValue("010", 10) == 10 by {
      assert "010"[..2] == "01";
      assert "01"[..1] == "0";
    }
  }

  lemma OctalTen()
    ensures RubyInteger("010") == Success(8)
  {
    var s := "010";
    assert forall i :: 1 <= i < |s| ==> s[i] < '8';
    assert s[1..] == "10";
    assert "10"[..1] == "1";
    assert "1"[..0] == "";
    assert DigitsValue("1", 8) == 1;
    assert DigitsValue("10", 8) == 8;
  }

  /** ... and a zero-padded field with an 8 or a 9 in it is refused. */
  lemma OctalRefusesNine()
    ensures MaxResidentBytesAsWritten(TimeLine("0:00.01elapsed ", "0avgdata", " ", "09") + "\n").Failure?
  {
    SampleLine("0:00.01elapsed ", "0avgdata", "09");
    assert "09"[1] == '9';
  }

  lemma TimeLineIsOneLine(front: string, avg: string, sep: string, digits: string)
    requires '\n' !in front && '\n' !in avg && BlankRun(sep) && AllDigits(digits)
    ensures '\n' !in TimeLine(front, avg, sep, digits)
  {
    var line := TimeLine(front, avg, sep, digits);
    var tail := sep + digits + Marker;
    assert '\n' !in tail by {
      forall i | 0 <= i < |tail| ensures tail[i] != '\n' {
        if i < |sep| {
          assert tail[i] == sep[i];
        } else if i < |sep| + |digits| {
          assert tail[i] == digits[i - |sep|];
        }
      }
    }
    assert line == front + "(" + avg + tail;
  }

  /** The first line of `TimeLine(front, avg, " ", digits) + "\n"` yields `digits`. */
  lemma SampleLine(front: string, avg: string, digits: string)
    requires '\n' !in front && '\n' !in avg
    requires |avg| > 0 && forall i :: 0 <= i < |avg| ==> IsNonSpace(avg[i])
    requires |digits| > 0 && AllDigits(digits)
    ensures FirstMaxResident(TimeLine(front, avg, " ", digits) + "\n") == Some(digits)
  {
    var line := TimeLine(front, avg, " ", digits);
    TimeLineIsOneLine(front, avg, " ", digits);
    TimeLineDigits(front, avg, " ", digits);
    FirstLineWins(line, "");
    assert line + "\n" + "" == line + "\n";
  }

  /** The corrected reading never depends on zero padding. */
  lemma {:induction false} ZeroPaddingIgnored(zeros: nat, digits: string)
    requires AllDigits(digits)
    ensures AllDigits(Zeros(zeros) + digits)
    ensures DigitsValue(Zeros(zeros) + digits, 10) == DigitsValue(digits, 10)
    decreases zeros
  {
    if zeros > 0 {
      ZeroPaddingIgnored(zeros - 1, digits);
      ZerosPrefix(zeros - 1, digits);
      assert Zeros(zeros) + digits == "0" + Zeros(zeros - 1) + digits;
    } else {
      assert Zeros(zeros) + digits == digits;
    }
  }

  function Zeros(n: nat): (s: string)
    ensures |s| == n && AllDigits(s)
    ensures forall i :: 0 <= i < n ==> s[i] == '0'
  {
    if n == 0 then "" else "0" + Zeros(n - 1)
  }

  lemma {:induction false} ZerosPrefix(n: nat, digits: string)
    requires AllDigits(digits)
    ensures AllDigits("0" + Zeros(n) + digits)
    ensures DigitsValue("0" + Zeros(n) + digits, 10) == DigitsValue(Zeros(n) + digits, 10)
    decreases |digits|
  {
    var s := Zeros(n) + digits;
    if |digits| > 0 {
      var init := digits[..|digits| - 1];
      ZerosPrefix(n, init);
      assert ("0" + Zeros(n) + digits)[..|"0" + s| - 1] == "0" + Zeros(n) + init;
      assert s[..|s| - 1] == Zeros(n) + init;
    } else {
      assert "0" + Zeros(n) + digits == Zeros(n + 1);
      AllZerosValue(n + 1);
      AllZerosValue(n);
      assert s == Zeros(n);
    }
  }

  lemma {:induction false} AllZerosValue(n: nat)
    ensures DigitsValue(Zeros(n), 10) == 0
  {
    if n > 0 {
      var z := Zeros(n);
      assert z[..n - 1] == Zeros(n - 1);
      AllZerosValue(n - 1);
    }
  }

  /* ---------- The line time(1) prints ---------- */

  /** A line in the shape time(1) prints: `front` holds the user, system,
      elapsed and CPU fields, `avg` the text/data sizes inside the
      parentheses, `sep` the blank run matched by `\s+`, and `digits` the
      peak resident size in kilobytes. */
  function TimeLine(front: string, avg: string, sep: string, digits: string): string {
    front + "(" + avg + sep + digits + Marker
  }

  /** A run that `\s+` matches within one line: non-empty, blank, no newline. */
  predicate BlankRun(sep: string) {
    |sep| > 0 && forall i :: 0 <= i < |sep| ==> IsRegexSpace(sep[i]) && sep[i] != '\n'
  }

  lemma {:induction false} TrailingCountAll(a: string, b: string, p: char -> bool)
    requires forall i :: 0 <= i < |b| ==> p(b[i])
    ensures TrailingCount(a + b, p) == TrailingCount(a, p) + |b|
    decreases |b|
  {
    if |b| > 0 {
      var b' := b[..|b| - 1];
      assert (a + b)[..|a + b| - 1] == a + b';
      TrailingCountAll(a, b', p);
    } else {
      assert a + b == a;
    }
  }

  /** Whatever the front fields are, the captured digits are the ones
      before `maxresident)k`. */
  lemma TimeLineDigits(front: string, avg: string, sep: string, digits: string)
    requires |avg| > 0 && forall i :: 0 <= i < |avg| ==> IsNonSpace(avg[i])
    requires BlankRun(sep)
    requires |digits| > 0 && AllDigits(digits)
    ensures MaxResidentDigits(TimeLine(front, avg, sep, digits)) == Some(digits)
  {
    var pre := front + "(" + avg + sep + digits;
    assert TimeLine(front, avg, sep, digits) == pre + Marker;
    SplitConcat(pre, Marker);
    PreDigits(front, avg, sep, digits);
  }

  lemma PreDigits(front: string, avg: string, sep: string, digits: string)
    requires |avg| > 0 && forall i :: 0 <= i < |avg| ==> IsNonSpace(avg[i])
    requires BlankRun(sep)
    requires |digits| > 0 && AllDigits(digits)
    ensures DigitsBeforeMarker(front + "(" + avg + sep + digits) == Some(digits)
  {
    var pre2 := front + "(" + avg;
    var pre1 := pre2 + sep;
    var pre := pre1 + digits;
    assert pre1[|pre1| - 1] == sep[|sep| - 1];
    DigitRun(pre1, digits);
    SplitConcat(pre1, digits);
    SplitConcat(pre2, sep);
    TrailingCountAll(pre2, sep, IsRegexSpace);
    assert pre2[|pre2| - 1] == avg[|avg| - 1];
    assert TrailingCount(pre2, IsRegexSpace) == 0;
    OpenParenRun(front, avg);
  }

  lemma DigitRun(pre1: string, digits: string)
    requires |pre1| > 0 && !IsDigit(pre1[|pre1| - 1])
    requires AllDigits(digits)
    ensures TrailingCount(pre1 + digits, IsDigit) == |digits|
  {
    TrailingCountAll(pre1, digits, IsDigit);
    assert !IsDigit(pre1[|pre1| - 1]);
  }

  lemma OpenParenRun(front: string, avg: string)
    requires |avg| > 0 && forall i :: 0 <= i < |avg| ==> IsNonSpace(avg[i])
    ensures var pre2 := front + "(" + avg;
      var n := TrailingCount(pre2, IsNonSpace);
      n >= 2 && '(' in pre2[|pre2| - n..|pre2| - 1]
  {
    var pre2 := front + "(" + avg;
    var tail := "(" + avg;
    assert pre2 == front + tail;
    assert forall i :: 0 <= i < |tail| ==> IsNonSpace(tail[i]) by {
      forall i | 0 <= i < |tail| ensures IsNonSpace(tail[i]) {
        if i > 0 { assert tail[i] == avg[i - 1]; }
      }
    }
    TrailingCountAll(front, tail, IsNonSpace);
    var n := TrailingCount(pre2, IsNonSpace);
    var m := pre2[|pre2| - n..|pre2| - 1];
    assert m[n - |avg| - 1] == pre2[|front|] == '(';
  }

  /** The first line with the expected tail decides the value; lines after it
      are never read. */
  lemma FirstLineWins(line: string, rest: string)
    requires '\n' !in line
    requires MaxResidentDigits(line).Some?
    ensures FirstMaxResident(line + "\n" + rest) == MaxResidentDigits(line)
  {
    var s := line + "\n" + rest;
    LineEndOf(line, rest);
    assert s[..|line|] == line;
  }

  /** A line without the expected tail is skipped. */
  lemma NonMatchingLineSkipped(line: string, rest: string)
    requires '\n' !in line
    requires MaxResidentDigits(line).None?
    ensures FirstMaxResident(line + "\n" + rest) == FirstMaxResident(rest)
  {
    var s := line + "\n" + rest;
    LineEndOf(line, rest);
    assert s[..|line|] == line;
    assert s[|line| + 1..] == rest;
  }

  lemma {:induction false} LineEndOf(line: string, rest: string)
    requires '\n' !in line
    ensures LineEnd(line + "\n" + rest) == |line|
    decreases |line|
  {
    var s := line + "\n" + rest;
    if |line| > 0 {
      assert s[0] == line[0];
      assert s[1..] == line[1..] + "\n" + rest;
      LineEndOf(line[1..], rest);
    } else {
      assert s[0] == '\n';
    }
  }

  /** Reading back a printed line: for any front fields and any lines after
      it, the result is the printed kilobytes times 1000. */
  lemma TimeLineRoundTrip(front: string, avg: string, sep: string, kb: nat, rest: string)
    requires '\n' !in front && '\n' !in avg
    requires |avg| > 0 && forall i :: 0 <= i < |avg| ==> IsNonSpace(avg[i])
    requires BlankRun(sep)
    ensures MaxResidentBytes(TimeLine(front, avg, sep, NatToString(kb)) + "\n" + rest) == Success(kb * 1000)
  {
    var digits := NatToString(kb);
    var line := TimeLine(front, avg, sep, digits);
    TimeLineIsOneLine(front, avg, sep, digits);
    TimeLineDigits(front, avg, sep, digits);
    FirstLineWins(line, rest);
    DecimalRoundTrip(kb);
  }

  /** The corrected reading gives the intended value for a zero-padded field
      too: `Zeros(z)` in front of the printed kilobytes changes nothing. The
      source as written reads the same field in octal (`OctalMisreading`). */
  lemma PaddedLineRoundTrip(front: string, avg: string, sep: string, zeros: nat, kb: nat, rest: string)
    requires '\n' !in front && '\n' !in avg
    requires |avg| > 0 && forall i :: 0 <= i < |avg| ==> IsNonSpace(avg[i])
    requires BlankRun(sep)
    ensures MaxResidentBytes(TimeLine(front, avg, sep, Zeros(zeros) + NatToString(kb)) + "\n" + rest) == Success(kb * 1000)
  {
    var digits := Zeros(zeros) + NatToString(kb);
    var line := TimeLine(front, avg, sep, digits);
    ZeroPaddingIgnored(zeros, NatToString(kb));
    TimeLineIsOneLine(front, avg, sep, digits);
    TimeLineDigits(front, avg, sep, digits);
    FirstLineWins(line, rest);
    DecimalRoundTrip(kb);
  }

  /** On the lines time(1) prints, which are never zero-padded, the source as
      written and the corrected reading agree. */
  lemma AsWrittenAgreesUnpadded(front: string, avg: string, sep: string, kb: nat, rest: string)
    requires '\n' !in front && '\n' !in avg
    requires |avg| > 0 && forall i :: 0 <= i < |avg| ==> IsNonSpace(avg[i])
    requires BlankRun(sep)
    ensures MaxResidentBytesAsWritten(TimeLine(front, avg, sep, NatToString(kb)) + "\n" + rest) == Success(kb * 1000)
  {
    var digits := NatToString(kb);
    var line := TimeLine(front, avg, sep, digits);
    TimeLineIsOneLine(front, avg, sep, digits);
    TimeLineDigits(front, avg, sep, digits);
    FirstLineWins(line, rest);
    TimeLineRoundTrip(front, avg, sep, kb, rest);
  }

  /** `\s+` before the kilobytes may be a tab or several blanks: a tab and a
      space still give the kilobytes times 1000. */
  lemma TabSeparatedLine()
    ensures MaxResidentBytes(TimeLine("0:00.01elapsed ", "0avgdata", "\t ", "5") + "\n") == Success(5000)
  {
    assert NatToString(5) == "5";
    assert BlankRun("\t ");
    TimeLineRoundTrip("0:00.01elapsed ", "0avgdata", "\t ", 5, "");
    assert TimeLine("0:00.01elapsed ", "0avgdata", "\t ", "5") + "\n" + "" == TimeLine("0:00.01elapsed ", "0avgdata", "\t ", "5") + "\n";
  }

  /** The documented example: 12345 kilobytes are 12345000 bytes. */
  lemma DocumentedExample()
    ensures MaxResidentBytes(TimeLine("1.00user " + "0.50system " + "0:02.00elapsed " + "75%", "0+0k", " ", "12345") + "\n")
      == Success(12345000)
  {
    var front := "1.00user " + "0.50system " + "0:02.00elapsed " + "75%";
    assert '\n' !in "1.00user " && '\n' !in "0.50system " && '\n' !in "0:02.00elapsed " && '\n' !in "75%";
    assert NatToString(12345) == "12345" by {
      assert NatToString(12) == "12";
      assert NatToString(123) == "123";
      assert NatToString(1234) == "1234";
    }
    assert BlankRun(" ");
    TimeLineRoundTrip(front, "0+0k", " ", 12345, "");
    assert TimeLine(front, "0+0k", " ", "12345") + "\n" + "" == TimeLine(front, "0+0k", " ", "12345") + "\n";
  }
}

=== FILE: wrappers.dfy ===
/** Failure-compatible wrappers shared by every module of the model. A Ruby
    `nil` becomes `None`, a raised exception becomes `Failure`. */
module Wrappers {

  datatype Option<+T> = None | Some(value: T)

  datatype Result<+R, +E> = Success(value: R) | Failure(error: E) {

    predicate IsFailure() {
      Failure?
    }

    function PropagateFailure<U>(): Result<U, E>
      requires Failure?
    {
      Failure(error)
    }

    function Extract(): R
      requires Success?
    {
      value
    }
  }
}
